=== FILE: README.md ===
# cedexis-golang command line: a Dafny model

This project models the interactive command line of the Cedexis client in Dafny, and proves properties of that model. The command line reads a line from the user. It tokenizes the line and walks a tree of command fragments. The result is either a parsed command (a code, argument values by name, and a handler) or a list of completion suggestions for the token being typed. It prints results with a fixed-width table printer.

The model covers these parts of the client:

- **Tokenizer** (`tokenizer.dfy`, module `Tokenizer`). This is the character-by-character scanner. Double quotes group words into one token. The scanner also reports whether the line ends in whitespace outside a quote.
- **Grammar** (`grammar.dfy`, module `Grammar`). It holds the fragment tree (`Frag`), positional and named arguments, and the parsed `Command`. `Walk` is the descent through command words that both walks share.
- **Parser** (`parser.dfy`, module `Parser`). `ParseCommand` is the strict left fold over the tokens. Each error it reports is a `ParseError` constructor.
- **Completion** (`completion.dfy`, module `Completion`). `Suggest` is the total, best-effort twin of the same walk. The model keeps both places where the two walks differ:
  - Completion strips a leading `-` without requiring one.
  - Completion reads flag-ness from every named argument declared along the path. The parser reads it only from the command's own arguments.
  - Completion takes a `-` token typed where a required positional is open as that positional's value. The parser rejects the same token with `UnexpectedNamedArg` (`ParserExamples.DashForRequiredPositional`).
- **Suggestions** (`suggestions.dfy`, module `Suggestions`). These are the helpers:
  - the prefix and substring filters;
  - the sort by text;
  - the enumeration of sub-commands and of named arguments as suggestions.
- **Table** (`table.dfy`, module `Table`). `Table.Print` is modelled as the list of lines it writes:
  - the column widths come from the contents;
  - the widest column is cut so a line fits the terminal;
  - then come a header, a rule of `=`, and one line per row.
- **Commands** (`commands.dfy`, module `Commands`). This is the CLI's command table:
  - the command-word constants and the command codes packed from them, byte by byte, as 64-bit words;
  - the code names, and the grammar the parser is built with.
- **Compare** (`compare.dfy`, module `Compare`). These are the client's change-detection helpers for optional values and optional lists.
- **Worked examples** (`parser_examples.dfy`, `command_examples.dfy` and `table_examples.dfy`). They restate the repository's tests of the tokenizer, the parser, completion and the table printer as lemmas, and run the client's own command table through the parser and completion.

Supporting modules are `Wrappers` (`Option`, `Result`) and `Strings`. `Strings` holds ASCII lower-casing, prefix tests, `strings.TrimLeft(s, "-")`, byte-wise string order, and sorted enumeration of a set of keys.

Some behaviour is a parameter of the model, or only an identifier. Suggestion callbacks (`SuggestFn`) are passed to `Suggest` as a `Provider` function. The grammar stores only a callback's identifier (`SuggestId`). Command handlers (`HandlerFn`) are identifiers (`HandlerId`) that are copied into the parsed command and never called.

Where the code departs from the documented behaviour of the command line, the model follows the code:

- `create platform cloud -region us` fails with `UnexpectedNamedArg`. The required positional `name` is still open when `-region` arrives, so the parser does not report the command as incomplete (`Parser.ParseNamedBeforeRequired`).
- At the end of input, a positional argument that is still open is reported missing even when it is optional. The end-of-input check does not look at `Opt` (`Parser.Finish`, `Parser.ParseMissingPositional`).
- A named argument awaiting its value takes the next token as the value, even when it starts with `-`. The parser does not report the argument as incomplete, and the dash token is stored (`Parser.ParseNamedPhase`, `Parser.ParseNamedValue`, `ParserExamples.DashTokenAsValue`). Completion does the same (`Completion.SuggestNamedValuePhase`).

## Model

| member | source | states |
|---|---|---|
| Strings.ToLower | cli/parser/parser.go:91 | Lower-casing keeps the length. Each character is lower-cased on its own (ASCII letters only). |
| Strings.ToLowerFixed | cli/parser/parser.go:91 | A word is unchanged by lower-casing exactly when it is already lower case. So the lower-cased lookup finds exactly the lower-case keys. |
| Strings.TrimLeftDash | cli/parser/parser.go:124 | The result is a suffix of the input. The part removed is all dashes. The result does not start with `-`. |
| Strings.TrimLeftDashOfDashPrefixed | cli/parser/parser.go:208 | Stripping `-name` gives back `name` when `name` does not itself start with `-`. |
| Strings.Repeat | cli/table.go:54 | The result has `n` characters, every one of them `c`. |
| Strings.LessIrreflexive | cli/parser/suggest.go:85 | No string sorts before itself. |
| Strings.LessTransitive | cli/parser/suggest.go:85 | String order is transitive. |
| Strings.LessTrichotomy | cli/parser/suggest.go:85 | Any two strings are equal or ordered one way or the other. |
| Strings.LessTrichotomyAll | cli/parser/suggest.go:85 | The same trichotomy, for all pairs at once. |
| Strings.LessCommonPrefix | cli/parser/suggest.go:32 | A common prefix such as `-` does not change the order of two keys. |
| Strings.LeastExists | cli/parser/suggest.go:20 | Every non-empty set of keys has a least element. |
| Strings.SortedKeys | cli/parser/suggest.go:20-24 | Enumerating a map's keys gives each key exactly once, in strictly increasing order. |
| Tokenizer.RunAppend | cli/parser/parser.go:275-291 | Scanning `a + b` equals scanning `a`, then `b` from the state `a` left. |
| Tokenizer.RunInvariant | cli/parser/parser.go:276-282 | The scan is inside a quote exactly when it has seen an odd number of `"`. No finished or pending token holds a `"`. |
| Tokenizer.TokensHaveNoQuotes | cli/parser/parser.go:276-295 | No token contains a double quote. |
| Tokenizer.WsAtEndCharacterised | cli/parser/parser.go:297 | `wsAtEnd` holds exactly when the line has an even number of quotes and its last character is a space. |
| Tokenizer.RunWithoutQuotes | cli/parser/parser.go:283-287 | With no quote in the line, the scan ends outside a quote and has produced no empty token. |
| Tokenizer.NoEmptyTokensWithoutQuotes | cli/parser/parser.go:283-295 | Outside quotes, spaces never produce an empty token. |
| Tokenizer.EmptyTokenInvariant | cli/parser/parser.go:276-287 | An empty pending token inside a quote means the last character was `"`. An empty finished token means the line contains `""`. |
| Tokenizer.EmptyTokenNeedsEmptyQuotes | cli/parser/parser.go:276-295 | A line that tokenizes to an empty token contains an empty quoted pair `""`. |
| Tokenizer.RunPlain | cli/parser/parser.go:288-290 | A word with no space or quote is appended to the pending token. |
| Tokenizer.SpaceThenWord | cli/parser/parser.go:283-290 | A space followed by a plain word finishes the pending token and starts the word as the new pending token. |
| Tokenizer.RunJoined | cli/parser/parser.go:283-290 | Scanning plain words joined by single spaces finishes every word but the last and leaves the last one pending. |
| Tokenizer.TokenizeJoin | cli/parser/parser.go:283-297 | Round trip: tokenizing non-empty words without spaces or quotes, joined by single spaces, gives back the words, with no trailing whitespace. |
| Tokenizer.LeadingSpaceIgnored | cli/parser/parser.go:283-287 | A leading space does not change the tokens. For a non-empty line it does not change the whitespace flag either. |
| Tokenizer.DoubledSpaceIgnored | cli/parser/parser.go:283-287 | Outside a quote, two spaces tokenize like one. |
| Tokenizer.UnterminatedQuote | cli/parser/parser.go:276-297 | An unterminated quote gives the rest of the line, spaces included, as the final token, with no trailing whitespace. |
| Tokenizer.RunInQuote | cli/parser/parser.go:288-290 | Inside a quote, a word without `"` (spaces included) is appended to the pending token. |
| Tokenizer.TrailingSpace | cli/parser/parser.go:283-297 | Outside a quote, a trailing space changes only the whitespace flag, which becomes true. |
| Tokenizer.QuotedToken | cli/parser/parser.go:276-282 | A closed quoted word becomes one token, whatever spaces it holds. |
| Grammar.Walk | cli/parser/parser.go:89-106 | A walk that consumes a word starts at a fragment that is no command. The accumulated named arguments only grow. Once a handler has been seen, one is kept. |
| Grammar.WalkAppend | cli/parser/parser.go:89-106 | Walking `a + b` equals walking `a`, then `b` from where `a` ended. It fails if either part fails. |
| Grammar.WalkWord | cli/parser/parser.go:91-97 | A lower-case command word of a fragment that is no command descends to the child it names. |
| Grammar.PosMapKeys | cli/parser/parser.go:108-117 | The positional values are stored under exactly the names of the first positional arguments. |
| Grammar.PosMapFacts | cli/parser/parser.go:108-117 | With distinct names, each positional value is stored under its own argument's name, one entry per value. |
| Parser.ParseWalk | cli/parser/parser.go:89-106 | Parsing command words moves the parser to the fragment `Walk` reaches, with that path's named arguments and handler. |
| Parser.LeafPhase | cli/parser/parser.go:108-137 | Once a complete command is reached, its fragment, accepted named arguments and handler never change. Every stored argument is a positional name or an accepted named argument, and the command's own flags hold `""`. |
| Parser.ParseDescent | cli/parser/parser.go:87-137 | A parse that ends at a complete command got there by walking a prefix of the tokens. |
| Parser.ParseEmpty | cli/parser/parser.go:76-79 | A parse fails with `EmptyCommand` if and only if there are no tokens. |
| Parser.NeverEmptyCommand | cli/parser/parser.go:87-156 | Neither the token walk nor the end-of-input checks ever report `EmptyCommand`. |
| Parser.ParseSuccessFollowsPath | cli/parser/parser.go:87-154 | A parsed command comes from a non-empty prefix of the tokens whose lower-cased lookup reaches a complete command. The command's code is that fragment's code and is non-zero. Its handler is the deepest one on the path. Every argument name is a positional name or a named argument declared along the path. The command's own flags hold `""`. |
| Parser.ParseFillStep | cli/parser/parser.go:108-117 | With distinct positional names, a plain token fills the next open positional argument. |
| Parser.ParseFill | cli/parser/parser.go:108-117 | With distinct positional names, plain tokens fill the open positional arguments in order. |
| Parser.ParseUpTo | cli/parser/parser.go:87-117 | With distinct positional names, command words, then plain values, bring the parser to the command with those values stored by name. With every positional given, the parser is then in the named-argument phase (`Parser.AwaitingName`). |
| Parser.ParseCompleteCommand | cli/parser/parser.go:140-154 | With distinct positional names, a command with all its positionals given parses to its code, the values by name, and the path's handler. |
| Parser.ParseMissingPositional | cli/parser/parser.go:140-142 | With distinct positional names, end of input with a positional still open fails with `MissingPositional`, naming the first open one. |
| Parser.ParseNamedBeforeRequired | cli/parser/parser.go:108-115 | With distinct positional names, a `-` token while a required positional is open fails with `UnexpectedNamedArg`. |
| Parser.ParseExtraPositional | cli/parser/parser.go:118-121 | With distinct positional names, a token without `-` after the positionals fails with `ExpectedNamedArg`. |
| Parser.ParseUnknownArgument | cli/parser/parser.go:122-128 | With distinct positional names, a named argument not declared along the path fails with `UnknownArgument`, naming it without its dashes. |
| Parser.ParseMissingValue | cli/parser/parser.go:118-146 | With distinct positional names, a named argument that is not a flag of the command, left at the end of input, fails with `IncompleteArgument`. |
| Parser.ParseFlag | cli/parser/parser.go:126-133 | With distinct positional names, a flag of the command itself is stored with value `""` and needs no value. |
| Parser.ParseNamedValue | cli/parser/parser.go:118-137 | With distinct positional names, a named argument followed by a value stores that value under the argument's name. |
| Parser.ParseSharedPositionalName | cli/parser/parser.go:108-142 | Two positionals sharing a name: filled slots are counted by stored names, so the second plain value overwrites the first, and the input fails with `MissingPositional` for the second positional. |
| Parser.ParseNamedPhase | cli/parser/parser.go:118-146 | From any state in the named-argument phase, however it was reached, the input may end there with the command. A plain token fails with `ExpectedNamedArg`. A name not declared along the path fails with `UnknownArgument`. A flag of the command is stored as `""`. Any other declared name stores the next token, or fails with `IncompleteArgument` at the end of input. After a flag or a value, the parser is back in the phase. |
| Parser.ParseIncompleteCommand | cli/parser/parser.go:148-156 | Words that stop at a fragment that is no command and has no positional arguments fail with `IncompleteCommand`. |
| Parser.ParseUnrecognised | cli/parser/parser.go:89-94 | A word that names no child fails with `UnrecognisedToken`, naming the word as typed. |
| Suggestions.Filter | cli/parser/suggest.go:40-81 | Filtering keeps an order-preserving subsequence. It holds every kept element as often as the input does, and no other element. |
| Suggestions.FilterIdempotent | cli/parser/suggest.go:40-81 | Filtering twice equals filtering once. |
| Suggestions.FilterKeepAll | cli/parser/suggest.go:40-81 | When every element passes, the input comes back unchanged. |
| Suggestions.FilterNone | cli/parser/suggest.go:40-81 | When no element passes, the result is empty. |
| Suggestions.FilterHasPrefix | cli/parser/suggest.go:40-59 | The result is the order-preserving subsequence of exactly the suggestions whose text starts with the prefix. When case is ignored, both sides are lower-cased first. |
| Suggestions.FilterContains | cli/parser/suggest.go:62-81 | The result is the order-preserving subsequence of exactly the suggestions whose text contains the string, with the same case rule. |
| Suggestions.FilterHasPrefixNone | cli/parser/suggest.go:40-59 | With no match, the prefix filter returns nothing. |
| Suggestions.FilterHasPrefixIdempotent | cli/parser/suggest.go:40-59 | The prefix filter is idempotent. |
| Suggestions.FilterContainsIdempotent | cli/parser/suggest.go:62-81 | The substring filter is idempotent. |
| Suggestions.FilterHasPrefixEmpty | cli/parser/suggest.go:40-59 | An empty prefix returns the input unchanged. |
| Suggestions.FilterContainsEmpty | cli/parser/suggest.go:62-81 | An empty search string returns the input unchanged. |
| Suggestions.Insert | cli/parser/suggest.go:83-89 | Inserting into a sorted list gives a sorted permutation of the list plus the new element. |
| Suggestions.SortSuggestions | cli/parser/suggest.go:83-89 | The result is a permutation of the input, sorted non-decreasingly by text. |
| Suggestions.SortSuggestionsSorted | cli/parser/suggest.go:83-89 | Sorting an already sorted list leaves it unchanged. |
| Suggestions.StrictlyIncreasingIsSorted | cli/parser/suggest.go:83-89 | A list strictly increasing by text is sorted. |
| Suggestions.CmdEntries | cli/parser/suggest.go:17-24 | There is one entry per key, in key order. Each entry's text is the key and its description is the fragment's. |
| Suggestions.ArgEntries | cli/parser/suggest.go:28-35 | There is one entry per key, in key order. Each entry's text is `-` plus the key, and its description is the argument's. |
| Suggestions.CmdEntriesOfSortedKeys | cli/parser/suggest.go:17-25 | The entries of a fragment map, in key order, are strictly increasing by text. There is one per key, each with that key's description. |
| Suggestions.ArgEntriesOfSortedKeys | cli/parser/suggest.go:28-36 | The entries of an argument map, in key order, are strictly increasing by text. There is one per key, each `-key` with its description. |
| Suggestions.ArgEntriesIncreasing | cli/parser/suggest.go:32 | Increasing keys give increasing `-key` texts. |
| Suggestions.ArgEntriesDescribe | cli/parser/suggest.go:31-33 | Every entry is `-key` for a declared key, with that key's description. |
| Suggestions.ArgEntriesCover | cli/parser/suggest.go:28-35 | Every declared argument has its entry. |
| Suggestions.CmdSuggestions | cli/parser/suggest.go:17-26 | There is exactly one suggestion per sub-command. Its text is the key and its description is the fragment's. The suggestions are strictly increasing by text. |
| Suggestions.ArgSuggestions | cli/parser/suggest.go:28-37 | There is exactly one suggestion per named argument, so the length is the map's size. Its text is `-` plus the key and its description is the argument's. The suggestions are strictly increasing by text. |
| Completion.SuggestWalk | cli/parser/parser.go:176-191 | Completing over command words moves to the fragment `Walk` reaches, whether or not a word is the last one. |
| Completion.SuggestBlank | cli/parser/parser.go:164-166 | An empty line suggests every top-level command, once each, with its description, sorted. |
| Completion.SuggestDeadEnd | cli/parser/parser.go:179-180 | An unknown command word that is not the last token gives no suggestions. |
| Completion.SuggestPartialWord | cli/parser/parser.go:181-182 | An unknown last command word gives the children whose names start with it, ignoring case. |
| Completion.SuggestAfterWords | cli/parser/parser.go:246-266 | After the command words, completion gives the end-of-input answer. There is none without trailing whitespace. With trailing whitespace below a fragment that is no command, it gives the children. |
| Completion.SuggestFillStep | cli/parser/parser.go:193-206 | With distinct positional names, a plain token that is not being edited fills the next open positional. |
| Completion.SuggestFill | cli/parser/parser.go:193-206 | With distinct positional names, plain tokens fill the open positionals in order. |
| Completion.SuggestUpTo | cli/parser/parser.go:173-206 | With distinct positional names, command words, then plain values, bring completion to the command with those values filled. With every positional given, completion is then in the named-argument phase (`Completion.SuggestAwaitingName`). |
| Completion.SuggestPositionalInProgress | cli/parser/parser.go:193-204 | With distinct positional names, a positional being edited gets the callback's answer, or else a placeholder naming the argument. If the token holds a space, there is nothing. A token starting with `-` counts as the value of a required positional; only an optional one is skipped. |
| Completion.SuggestNextPositional | cli/parser/parser.go:251-254 | With distinct positional names, after a space with a positional open, the answer is one placeholder naming it. |
| Completion.SuggestNamedAfterPositionals | cli/parser/parser.go:256-257 | With distinct positional names, after a space with all positionals given, the answer is every named argument declared along the path. |
| Completion.SuggestNamedPhaseEnd | cli/parser/parser.go:256-257 | From any state in the named-argument phase, a trailing space gives the names still accepted. |
| Completion.SuggestNamedPhaseUnknown | cli/parser/parser.go:207-214 | From any state in the named-argument phase, a last token naming no accepted argument gives the accepted names that start with it, ignoring case. |
| Completion.SuggestNamedPhaseFlag | cli/parser/parser.go:216-218 | From any state in the named-argument phase, a flag, with or without `-`, is consumed and no longer offered, and completion stays in the phase. |
| Completion.SuggestNamedValuePhase | cli/parser/parser.go:207-243 | From any state in the named-argument phase, an accepted non-flag name followed by a value that is not being edited stores the value. The name is no longer offered, and completion stays in the phase. |
| Completion.SuggestPartialNamed | cli/parser/parser.go:207-214 | With distinct positional names, an unknown last argument name gives the declared arguments that start with it, ignoring case. |
| Completion.SuggestExtraWord | cli/parser/parser.go:207-214 | With distinct positional names, a last token without `-` that names no argument gives nothing, because every argument suggestion starts with `-`. |
| Completion.SuggestFlagConsumed | cli/parser/parser.go:216-218 | With distinct positional names, a flag declared anywhere on the path is consumed. After a space, the answer is the remaining arguments, and the flag is not among them. |
| Completion.SuggestValueExpected | cli/parser/parser.go:219-221 | With distinct positional names, after a space following a non-flag argument, the answer is that argument's callback on `""`, or else a placeholder naming it. |
| Completion.SuggestValueInProgress | cli/parser/parser.go:222-236 | With distinct positional names, a value being edited gets the argument's callback answer, or else itself with the argument's description. If the value holds a space, there is nothing. |
| Completion.SuggestAfterValue | cli/parser/parser.go:238-257 | With distinct positional names, once an argument has its value, a trailing space suggests the remaining arguments, and that argument is not among them. |
| Table.UpdateColWidths | cli/table.go:70-76 | Each width becomes the larger of itself and the matching cell's length. Widths past the end of the row are unchanged. |
| Table.ColMaxIsLongest | cli/table.go:17-21 | The column maximum bounds every cell of the column. It is 0 or the length of some cell. |
| Table.ScanWidths | cli/table.go:19-21 | After the scan over the rows, each width is the larger of its start value and the longest cell of its column. |
| Table.NaturalWidths | cli/table.go:17-21 | Each column's width is the longest of its header and its cells. |
| Table.LargestUpTo | cli/table.go:24-28 | The index returned holds the maximum of the prefix and is the first index that does (strict `>`). |
| Table.LargestCol | cli/table.go:24-28 | The largest column is the first index that holds the maximum width. It is 0 when there are no columns. |
| Table.CutWidths | cli/table.go:35-38 | Only the largest column changes. When the total exceeds the width, that column shrinks by exactly the excess. Otherwise nothing changes. |
| Table.CutTotal | cli/table.go:23-38 | After the cut, the total width, counting one separator between columns, is the terminal width if the table was wider, else unchanged. |
| Table.Cell | cli/table.go:45 | A cell is exactly `w` characters: the text truncated to `w`, or the text padded with spaces. |
| Table.Row | cli/table.go:40-46 | A line is as wide as its columns' widths plus one separator between each pair. |
| Table.RowColumns | cli/table.go:60-65 | Cell `i` occupies `w[i]` characters from column `i`'s offset. It is preceded by a space. |
| Table.Bars | cli/table.go:49-55 | The rule has one run of `=` per column, each exactly as long as the column's width. |
| Table.PrintWidths | cli/table.go:17-38 | There is one non-negative printing width per column. |
| Table.Lines | cli/table.go:40-67 | Printing writes `|rows| + 2` lines. |
| Table.LinesWith | cli/table.go:40-67 | With given widths, the output is `|rows| + 2` lines. |
| Table.RowLines | cli/table.go:58-67 | There is one line per row. |
| Table.RowLinesAt | cli/table.go:58-67 | Line `j` of the rows is row `j` laid out in the widths. |
| Table.LinesAt | cli/table.go:40-67 | The first line is the header, the second is the rule, and line `j + 2` is row `j`. |
| Table.LinesWidths | cli/table.go:40-67 | The header, the rule and every full row are as wide as the total width. |
| Table.LinesShape | cli/table.go:23-67 | The header, the rule and every full row are exactly the natural total width, or the terminal width when the table does not fit. |
| Table.RuleColumn | cli/table.go:49-55 | Within each column, the rule is all `=`. |
| Table.HeaderAligned | cli/table.go:40-46 | Header cell `i` occupies the `w[i]` characters from column `i`'s offset. |
| Table.RuleAligned | cli/table.go:49-56 | Under header cell `i`, the rule is `=` throughout. |
| Table.RowAligned | cli/table.go:58-67 | Cell `i` of every row occupies the same characters as header cell `i`. |
| Commands.PackUnpack | cli/command.go:46-52 | A code packed from three words below 256 gives back each word from its byte, the second through the list handler's object-type read. No bits above the third byte are set. |
| Commands.PackInjective | cli/command.go:46-52 | Two codes packed from words below 256 are equal exactly when the words are. |
| Commands.CodesDistinct | cli/command.go:41-56 | The five command codes are pairwise distinct. |
| Commands.PlatformObjectType | cli/command.go:46-55 | The three platform commands have object type `CmdFragPlatform`; `exit` does not. |
| Commands.CodeName | cli/command.go:66-68 | A code without an entry is named `""`, the map's zero value. |
| Commands.CodeValues | cli/command.go:41-56 | The codes' integer values. |
| Commands.NamesAtValues | cli/command.go:58-64 | The name stored for each code. |
| Commands.NamesOfCodes | cli/command.go:58-64 | Every defined code has an entry, with its listed name. |
| Commands.AllNamesDistinct | cli/command.go:58-64 | The names are non-empty and pairwise distinct. |
| Commands.NamesCoverCodes | cli/command.go:58-64 | Every defined code has a non-empty name, and distinct codes have distinct names. |
| Commands.LeavesWellFormed | cli/command.go:78-97 | Every command of the table has a non-zero code. |
| Commands.CreateWellFormed | cli/command.go:71-87 | Below `create`, every fragment that is no command has children, and every command word is lower case. |
| Commands.ListPlatformWellFormed | cli/command.go:91-94 | The same holds below `list platform`. |
| Commands.ListWellFormed | cli/command.go:88-96 | The same holds below `list`. |
| Commands.CommandSpecWellFormed | cli/command.go:70-98 | The whole command table is well formed: every fragment that is no command can be completed, and every command word is lower case, so the parser's lookup reaches it. |
| Commands.WalkChild | cli/parser/parser.go:89-97 | In a well-formed tree, every command word descends to its child, which is well formed too. |
| Compare.ValuesDiffer | cedexis/compare.go:3-37 | With the first value present, the result is the intended comparison `Compare.ValuesDifferCorrected`: true exactly when the values are unequal. With the first value absent, the result is the negation of the intended one. |
| Compare.ValuesDifferInverted | cedexis/compare.go:4-6 | Two absent values are reported as differing. Absent against present is reported as the same. |
| Compare.ValuesDifferCorrected | cedexis/compare.go:3-37 | The result is true exactly when the two optional values are unequal. |
| Compare.ElementsDiffer | cedexis/compare.go:60-70 | Two lists differ iff their lengths differ or some position holds unequal elements. |
| Compare.SeqsDiffer | cedexis/compare.go:51-93 | Lists get the scalar helpers' absent-value handling. Then lengths that differ give true. For equal lengths, the result is false iff the lists agree at every position. |
| Compare.SeqsDifferInverted | cedexis/compare.go:52-54 | Two absent lists are reported as differing. An absent list against an empty one is reported as the same. |
| Compare.SeqsDifferCorrected | cedexis/compare.go:51-93 | The result is true exactly when the two optional lists are unequal. |
| ParserExamples.TokenizeEmpty | cli/parser/parser_test.go:42 | The empty line has no tokens and no trailing whitespace. |
| ParserExamples.TokenizeExit | cli/parser/parser_test.go:43 | `exit` is one token. |
| ParserExamples.TokenizeQuoted | cli/parser/parser_test.go:44 | `cmd "a space"` gives `cmd` and `a space`. |
| ParserExamples.TokenizeCmdArg | cli/parser/parser_test.go:45 | `cmd -arg` gives two tokens. |
| ParserExamples.TokenizeExtraSpaces | cli/parser/parser_test.go:46-47 | A doubled inner space and a leading space change nothing. |
| ParserExamples.TokenizeTrailingSpace | cli/parser/parser_test.go:48 | `cmd -arg ` gives the same tokens, with trailing whitespace. |
| ParserExamples.TokenizeUnterminated | cli/parser/parser_test.go:49 | `cmd "ff ` gives `cmd` and `ff `, with no trailing whitespace. |
| ParserExamples.TestSpecShaped | cli/parser/parser_test.go:12-32 | The test grammar has the shape the parse examples rely on: `exit`, and `create platform cloud` with one required positional `name`, the flag `flag`, `shortName` declared on `create`, and no `unknown` argument or `xxx` command. |
| ParserExamples.ParseExit | cli/parser/parser_test.go:77 | `exit` parses to the exit code with no arguments. |
| ParserExamples.ParseName | cli/parser/parser_test.go:78-80 | `create platform cloud v` parses with `name` set to `v`. |
| ParserExamples.ParseNameFlag | cli/parser/parser_test.go:81-83 | A trailing flag of the command is stored with value `""`. |
| ParserExamples.ParsePlatformOnly | cli/parser/parser_test.go:84 | `create platform` fails with `IncompleteCommand`. |
| ParserExamples.ParseNoName | cli/parser/parser_test.go:85 | `create platform cloud` fails with `MissingPositional("name")`. |
| ParserExamples.ParseNamedBeforeName | cli/parser/parser_test.go:86 | A named argument before `name` fails with `UnexpectedNamedArg`. |
| ParserExamples.ParseNoValue | cli/parser/parser_test.go:87 | A named argument with no value fails with `IncompleteArgument`. |
| ParserExamples.ParseUnknown | cli/parser/parser_test.go:88 | An undeclared argument fails with `UnknownArgument`. |
| ParserExamples.ParseExtra | cli/parser/parser_test.go:89 | An extra plain word fails with `ExpectedNamedArg`. |
| ParserExamples.ParseBadWord | cli/parser/parser_test.go:90 | An unknown command word fails with `UnrecognisedToken`. |
| ParserExamples.DashTokenAsValue | cli/parser/parser.go:134-136 | A `-` token right after a named argument that is no flag is stored as that argument's value; the parse succeeds and reports no `IncompleteArgument`. |
| ParserExamples.ParseEnclosingArgument | cli/parser/parser_test.go:91-93 | An argument declared on `create` is accepted below it and stored beside `name`. |
| ParserExamples.SuggestNothingTyped | cli/parser/parser_test.go:136 | An empty line gives one suggestion per top-level command, and there are some. |
| ParserExamples.SuggestUnknownWordThenMore | cli/parser/parser_test.go:140 | An unknown word followed by more tokens gives nothing. |
| ParserExamples.SuggestNameHint | cli/parser/parser_test.go:141 | After `create platform cloud `, the answer is a placeholder for `name`. |
| ParserExamples.SuggestNameInProgress | cli/parser/parser_test.go:142-144 | A name being typed gets a placeholder, unless it holds a space, in which case there is nothing. |
| ParserExamples.SuggestAfterName | cli/parser/parser_test.go:143 | After the name and a space, the answer is every argument declared along the path. |
| ParserExamples.SuggestNamedValueInProgress | cli/parser/parser_test.go:147-148 | A value being typed is echoed with its argument's description, unless it holds a space. |
| ParserExamples.SuggestExtraAfterName | cli/parser/parser_test.go:150 | An extra plain word after the name gives nothing. |
| ParserExamples.SuggestAfterFlag | cli/parser/parser_test.go:152 | After a consumed flag and a space, the answer is every other declared argument. |
| ParserExamples.FlagOnEnclosingFragment | cli/parser/parser.go:130 | With distinct positional names, a flag declared only above the command is waited on as a value by the parser, which then fails with `IncompleteArgument`. Completion consumes it as a flag and stops offering it. |
| ParserExamples.ParseDashForName | cli/parser/parser.go:108-115 | A `-` token where the required positional `name` is open fails with `UnexpectedNamedArg`, naming `name`. |
| ParserExamples.SuggestDashForName | cli/parser/parser.go:193-204 | Completion takes the same token as the value of `name`. While it is being typed, the answer is the placeholder for `name`. |
| ParserExamples.DashForRequiredPositional | cli/parser/parser.go:193 | On one input, the parser rejects a `-` token at a required positional while completion treats it as that positional's value. |
| ParserExamples.DashOptionalInCompletion | cli/parser/parser.go:119-121 | A flag of the command written without its `-` after the positionals: the parser fails with `ExpectedNamedArg`. Completion strips a dash without requiring one, so it consumes the word as that flag and stops offering it. |
| ParserExamples.DashOptionalOnTestFlag | cli/parser/parser_test.go:27 | The same for the test grammar's flag `flag`. |
| CommandExamples.CommandSpecShaped | cli/command.go:70-98 | The client's command table has the test grammar's shape, so every parse and completion example above holds of it too. Its `create platform cloud` is the create-cloud command. |
| CommandExamples.ParseExitCommand | cli/command.go:97 | `exit` parses to `CmdExit`, with no arguments and no handler. |
| CommandExamples.ParseListCommunity | cli/command.go:92 | `list platform community` parses to `CmdListCommunityPlatforms`, with no arguments and no handler. |
| CommandExamples.ParseListPrivate | cli/command.go:93 | `list platform private` parses to `CmdListPrivatePlatforms`, with no arguments and no handler. |
| CommandExamples.ParseCreateCloud | cli/command.go:76-83 | `create platform cloud v` parses to `CmdCreateCloudPlatform`, with `name` set to `v` and no handler. |
| CommandExamples.SuggestRegion | cli/command.go:80 | After `-region` and a space, completion gives the answer of the cloud-platform callback on `""`. |
| TableExamples.TableWidths | cli/table_test.go:9-15 | The test table's natural widths are 18 and 20. |
| TableExamples.TableCut | cli/table_test.go:23 | At width 30, the widest column is cut to 11. |
| TableExamples.HeaderLine | cli/table_test.go:17 | The header line of the test. |
| TableExamples.RuleLine | cli/table_test.go:18 | The rule line of the test. |
| TableExamples.FirstRowLine | cli/table_test.go:19 | The first row line of the test. |
| TableExamples.SecondRowLine | cli/table_test.go:20 | The second row line, truncated to `$$$ very la`. |
| TableExamples.TableLines | cli/table_test.go:17-20 | The four lines of the test, each 30 characters wide. |
| TableExamples.TablePrint | cli/table_test.go:17-27 | The printed text equals the test's expected string. |

## Left out

- The REPL, the prompt library, the command handlers and the network-backed suggestion caches are I/O. Handlers are identifiers only. Suggestion callbacks are an opaque `Provider` parameter.
- `float64sDiffer` is left out because it compares floating point values.
- `strings.ToLower` is modelled for ASCII only. Go's Unicode case mapping is a library table. Lengths and padding in the table printer count characters, so they agree with Go's byte length and rune counts only for ASCII text.
- Go map iteration order is modelled as increasing key order. The map keys are distinct, so `sortSuggestions` (an unstable `sort.Slice`) gives the same list whatever the order. The model sorts explicitly and proves that sorting sorted input is the identity.
- Error messages are modelled as `ParseError` constructors carrying the offending token or name. The message text is not modelled.
- `Table.Print` panics (on a row longer than the header, or on a cut larger than the widest column) are modelled as preconditions: `RowsFit` and `CutFits`. The output writer is left out, and the printed text is the lines, each followed by a newline.
- The repository's parser test gives both of its commands the code 1, because its second constant has no expression and so repeats the first. The test grammar keeps this.
- The parse and completion examples are stated over token lists and over any grammar of the test grammar's shape. The tokenizer examples and `Tokenizer.TokenizeJoin` cover the step from the test's text to those tokens.
- Some completion test rows are covered only by the general lemmas, not by a worked example:
  - `cr` and `junk`: `Completion.SuggestPartialWord`;
  - `create `: `Completion.SuggestAfterWords`;
  - `-`, `-ta` and `-fla`: `Completion.SuggestPartialNamed`;
  - `-shortName `: `Completion.SuggestValueExpected`.
- The lemmas about filling positionals, and every lemma about what follows them, assume that a command's positional arguments have distinct names (`DistinctNames`). Go counts filled slots by `len(args)`, so with a shared name later values overwrite earlier ones and the count stalls. The command then never completes. `Parser.ParseSharedPositionalName` states this case, and no grammar in the repository has such a command.
- `Table.Print`: its contract is stated through `Table.Lines` and the lemmas about the lines. The function itself only renders them.

## Findings

| source | as written | input that shows it | evidently intended | confidence | as-written member | corrected member |
|---|---|---|---|---|---|---|
| cedexis/compare.go:4-6 | With the first value absent, the result is "the second is absent" | both absent gives "differ"; absent against present gives "same" | absent differs from present, and two absent values are the same | medium, not executed | Compare.ValuesDifferInverted | Compare.ValuesDifferCorrected |
| cedexis/compare.go:52-54 | The list helpers share the same absent-value handling | both lists absent gives "differ"; absent against `[]` gives "same" | the helpers differ exactly when the optional lists are unequal | medium, not executed | Compare.SeqsDifferInverted | Compare.SeqsDifferCorrected |

=== FILE: command_examples.dfy ===
/**
 * The client's own command table run through the parser and the completer:
 * it has the shape of the parser's test grammar, so the cases stated for
 * that shape hold of it, and its commands parse to their own codes.
 */
module CommandExamples {
  import opened Wrappers
  import opened Strings
  import opened Grammar
  import opened Parser
  import opened Completion
  import opened Commands
  import ParserExamples

  /** `commandSpec` has the test shape; its `create platform cloud` is `CreateCloud`. */
  lemma CommandSpecShaped()
    ensures ParserExamples.TestShaped(CommandSpec)
    ensures ParserExamples.Cloud(CommandSpec) == CreateCloud
  {
  }

  /** `exit` is the exit command, with no arguments and no handler. */
  lemma ParseExitCommand()
    ensures ParseTokenList(CommandSpec, ["exit"]) == Success(Command(CmdExit as int, map[], None))
  {
    assert IsLower("exit");
    WalkWord(Start(CommandSpec), "exit");
    ParseCompleteCommand(CommandSpec, ["exit"], []);
    ParserExamples.Triple("exit", "", "");
  }

  /** `list platform community` is the community listing command. */
  lemma ParseListCommunity()
    ensures ParseTokenList(CommandSpec, ["list", "platform", "community"])
         == Success(Command(CmdListCommunityPlatforms as int, map[], None))
  {
    assert IsLower("list") && IsLower("platform") && IsLower("community");
    ParserExamples.WalkThree(Start(CommandSpec), "list", List, "platform", ListPlatform, "community", ListCommunity);
    ParseCompleteCommand(CommandSpec, ["list", "platform", "community"], []);
    ParserExamples.AppendEmpty(["list", "platform", "community"], "", "");
  }

  /** `list platform private` is the private listing command. */
  lemma ParseListPrivate()
    ensures ParseTokenList(CommandSpec, ["list", "platform", "private"])
         == Success(Command(CmdListPrivatePlatforms as int, map[], None))
  {
    assert IsLower("list") && IsLower("platform") && IsLower("private");
    ParserExamples.WalkThree(Start(CommandSpec), "list", List, "platform", ListPlatform, "private", ListPrivate);
    ParseCompleteCommand(CommandSpec, ["list", "platform", "private"], []);
    ParserExamples.AppendEmpty(["list", "platform", "private"], "", "");
  }

  /** `create platform cloud` and a name is the create command, the name stored under `name`. */
  lemma ParseCreateCloud(v: string)
    requires |v| > 0 && v[0] != '-'
    ensures ParseTokenList(CommandSpec, ParserExamples.CloudWords + [v])
         == Success(Command(CmdCreateCloudPlatform as int, map["name" := v], None))
  {
    assert IsLower("create") && IsLower("platform") && IsLower("cloud");
    ParserExamples.WalkThree(Start(CommandSpec), "create", Create, "platform", CreatePlatform, "cloud", CreateCloud);
    CommandSpecShaped();
    ParserExamples.Plain(v);
    ParseCompleteCommand(CommandSpec, ParserExamples.CloudWords, [v]);
    ParserExamples.OneValue(CommandSpec, v);
  }

  /** After `-region` and a space, completion asks the cloud-platform callback with the empty string. */
  lemma SuggestRegion(call: Provider, v: string)
    requires |v| > 0 && v[0] != '-'
    ensures SuggestFromTokens(call, CommandSpec, ParserExamples.CloudWords + [v, "-region"], true)
         == call(SuggestCloudPlatforms, "")
  {
    CommandSpecShaped();
    ParserExamples.AtCloud(CommandSpec);
    ParserExamples.Plain(v);
    ParserExamples.Dashed("region");
    var named := ParserExamples.CloudNamed(CommandSpec);
    assert "region" in CreateCloud.args;
    assert named["region"] == NamedArg("Set the public cloud region", Some(SuggestCloudPlatforms), false);
    SuggestValueExpected(call, CommandSpec, ParserExamples.CloudWords, [v], "-region");
    ParserExamples.Append1(ParserExamples.CloudWords, v, "-region");
  }
}

=== FILE: commands.dfy ===
/**
 * The CLI's command table: the command-word constants, the command codes
 * packed from them, their display names, and the grammar the parser is
 * built with.
 */
module Commands {
  import opened Wrappers
  import opened Strings
  import opened Grammar

  /** `CommandFrag`: one command word, numbered in declaration order. */
  const CmdFragCreate: bv64 := 0
  const CmdFragList: bv64 := 1
  const CmdFragExit: bv64 := 2
  const CmdFragPlatform: bv64 := 3
  const CmdFragCloud: bv64 := 4
  const CmdFragPublic: bv64 := 5
  const CmdFragPrivate: bv64 := 6

  /** A command code: up to three command words, one per byte, the first lowest. */
  function Pack(f: bv64, s: bv64, ss: bv64): bv64
  {
    f | (s << 8) | (ss << 16)
  }

  /** What the list handler reads as the object type: the second byte. */
  function ObjectType(code: bv64): bv64
  {
    (code >> 8) & 0xff
  }

  /** Unpacking: each byte of a packed code is the word it was packed from. */
  lemma PackUnpack(f: bv64, s: bv64, ss: bv64)
    requires f < 256 && s < 256 && ss < 256
    ensures Pack(f, s, ss) & 0xff == f
    ensures ObjectType(Pack(f, s, ss)) == s
    ensures (Pack(f, s, ss) >> 16) & 0xff == ss
    ensures Pack(f, s, ss) >> 24 == 0
  {
  }

  /** Packing is injective on byte-sized words. */
  lemma PackInjective(f: bv64, s: bv64, ss: bv64, f': bv64, s': bv64, ss': bv64)
    requires f < 256 && s < 256 && ss < 256 && f' < 256 && s' < 256 && ss' < 256
    ensures Pack(f, s, ss) == Pack(f', s', ss') <==> f == f' && s == s' && ss == ss'
  {
    PackUnpack(f, s, ss);
    PackUnpack(f', s', ss');
  }

  /** `CommandCode`s: the command words of each command, packed. */
  const CmdNone: bv64 := 0
  const CmdCreateCloudPlatform: bv64 := Pack(CmdFragCreate, CmdFragPlatform, CmdFragCloud)
  const CmdListCommunityPlatforms: bv64 := Pack(CmdFragList, CmdFragPlatform, CmdFragPublic)
  const CmdListPrivatePlatforms: bv64 := Pack(CmdFragList, CmdFragPlatform, CmdFragPrivate)
  const CmdExit: bv64 := CmdFragExit

  const AllCodes: seq<bv64> := [CmdNone, CmdCreateCloudPlatform, CmdListCommunityPlatforms, CmdListPrivatePlatforms, CmdExit]

  /** The codes are pairwise distinct, so no two commands are confused. */
  lemma CodesDistinct()
    ensures forall i, j :: 0 <= i < j < |AllCodes| ==> AllCodes[i] != AllCodes[j]
  {
  }

  /** The three platform commands all read as the platform object type. */
  lemma PlatformObjectType()
    ensures ObjectType(CmdCreateCloudPlatform) == CmdFragPlatform
    ensures ObjectType(CmdListCommunityPlatforms) == CmdFragPlatform
    ensures ObjectType(CmdListPrivatePlatforms) == CmdFragPlatform
    ensures ObjectType(CmdExit) != CmdFragPlatform
  {
    PackUnpack(CmdFragCreate, CmdFragPlatform, CmdFragCloud);
    PackUnpack(CmdFragList, CmdFragPlatform, CmdFragPublic);
    PackUnpack(CmdFragList, CmdFragPlatform, CmdFragPrivate);
  }

  /** `commandCodeNames`, keyed by the code's integer value as a fragment carries it. */
  const CommandCodeNames: map<int, string> := map[
    CmdNone as int := "CmdNone",
    CmdCreateCloudPlatform as int := "CmdCreateCloudPlatform",
    CmdListCommunityPlatforms as int := "CmdListPublicPlatforms",
    CmdListPrivatePlatforms as int := "CmdListPrivatePlatforms",
    CmdExit as int := "CmdExit"]

  /** `CommandCode.String`: the name, or "" for a code without one. */
  function CodeName(c: int): (r: string)
    ensures c !in CommandCodeNames ==> r == ""
  {
    if c in CommandCodeNames then CommandCodeNames[c] else ""
  }

  /** The codes' integer values. */
  lemma CodeValues()
    ensures CmdNone as int == 0 && CmdExit as int == 2
    ensures CmdCreateCloudPlatform as int == 0x04_03_00
    ensures CmdListCommunityPlatforms as int == 0x05_03_01
    ensures CmdListPrivatePlatforms as int == 0x06_03_01
  {
  }

  /** The names of `AllCodes`, in the same order. */
  const AllNames: seq<string> := ["CmdNone", "CmdCreateCloudPlatform", "CmdListPublicPlatforms", "CmdListPrivatePlatforms", "CmdExit"]

  lemma NamesAtValues()
    ensures CodeName(0) == AllNames[0] && CodeName(0x04_03_00) == AllNames[1]
    ensures CodeName(0x05_03_01) == AllNames[2] && CodeName(0x06_03_01) == AllNames[3]
    ensures CodeName(2) == AllNames[4]
  {
    CodeValues();
  }

  lemma NamesOfCodes()
    ensures forall i :: 0 <= i < |AllCodes| ==> AllCodes[i] as int in CommandCodeNames && CodeName(AllCodes[i] as int) == AllNames[i]
  {
    CodeValues();
    NamesAtValues();
  }

  lemma AllNamesDistinct()
    ensures forall i :: 0 <= i < |AllNames| ==> AllNames[i] != ""
    ensures forall i, j :: 0 <= i < j < |AllNames| ==> AllNames[i] != AllNames[j]
  {
    assert AllNames[0][3] != AllNames[4][3] && AllNames[1][3] != AllNames[2][3];
  }

  /** Every defined code has its own, non-empty name. */
  lemma NamesCoverCodes()
    ensures forall i :: 0 <= i < |AllCodes| ==> AllCodes[i] as int in CommandCodeNames && CodeName(AllCodes[i] as int) != ""
    ensures forall i, j :: 0 <= i < j < |AllCodes| ==> CodeName(AllCodes[i] as int) != CodeName(AllCodes[j] as int)
  {
    NamesOfCodes();
    AllNamesDistinct();
  }

  /** The id standing for the `suggestCloudPlatforms` callback. */
  const SuggestCloudPlatforms: SuggestId := 0

  function Arg(desc: string): NamedArg { NamedArg(desc, None, false) }

  function Node(desc: string, sub: map<string, Frag>, args: map<string, NamedArg>): Frag
  {
    Frag(desc, [], sub, args, 0, None)
  }

  function Leaf(desc: string, code: int, posArgs: seq<PosArg>, args: map<string, NamedArg>): Frag
  {
    Frag(desc, posArgs, map[], args, code, None)
  }

  const CreateCloud: Frag := Leaf("New public cloud platform", CmdCreateCloudPlatform as int,
    [PosArg("name", "Name of platform", false, None)],
    map["region" := NamedArg("Set the public cloud region", Some(SuggestCloudPlatforms), false),
        "tags" := Arg("Set tags on the new platform")])

  const CreatePlatform: Frag := Node("Create a new platform", map["cloud" := CreateCloud], map[])

  const Create: Frag := Node("Creates platforms, etc", map["platform" := CreatePlatform],
    map["shortName" := Arg("Set the shortname"), "description" := Arg("Set the description")])

  const ListCommunity: Frag := Leaf("List community platforms", CmdListCommunityPlatforms as int, [], map[])
  const ListPrivate: Frag := Leaf("List private platforms", CmdListPrivatePlatforms as int, [], map[])

  const ListPlatform: Frag := Node("List platforms", map["community" := ListCommunity, "private" := ListPrivate], map[])

  const List: Frag := Node("List platforms, etc", map["platform" := ListPlatform], map["filter" := Arg("Regex filter")])

  const Exit: Frag := Leaf("Exit", CmdExit as int, [], map[])

  /** `commandSpec`. */
  const CommandSpec: map<string, Frag> := map["create" := Create, "list" := List, "exit" := Exit]

  /**
   * A grammar every word of which can be completed and reached: a fragment
   * that is no command has children, and command words are lower case (the
   * parser lower-cases what it looks up).
   */
  predicate WellFormed(f: Frag)
  {
    && (f.code == 0 ==> |f.sub| > 0)
    && forall k :: k in f.sub ==> IsLower(k) && WellFormed(f.sub[k])
  }

  lemma LeafWellFormed(desc: string, code: int, posArgs: seq<PosArg>, args: map<string, NamedArg>)
    requires code != 0
    ensures WellFormed(Leaf(desc, code, posArgs, args))
  {
  }

  lemma NodeWellFormed(desc: string, sub: map<string, Frag>, args: map<string, NamedArg>)
    requires |sub| > 0
    requires forall k :: k in sub ==> IsLower(k) && WellFormed(sub[k])
    ensures WellFormed(Node(desc, sub, args))
  {
  }

  lemma OneChild(k: string, c: Frag)
    requires IsLower(k) && WellFormed(c)
    ensures var sub := map[k := c];
      |sub| > 0 && forall k' :: k' in sub ==> IsLower(k') && WellFormed(sub[k'])
  {
    assert k in map[k := c];
  }

  lemma ThreeChildren(a: string, fa: Frag, b: string, fb: Frag, c: string, fc: Frag)
    requires IsLower(a) && IsLower(b) && IsLower(c) && WellFormed(fa) && WellFormed(fb) && WellFormed(fc)
    ensures var sub := map[a := fa, b := fb, c := fc];
      |sub| > 0 && forall k :: k in sub ==> IsLower(k) && WellFormed(sub[k])
  {
    assert c in map[a := fa, b := fb, c := fc];
  }

  lemma LeavesWellFormed()
    ensures WellFormed(CreateCloud) && WellFormed(ListCommunity) && WellFormed(ListPrivate) && WellFormed(Exit)
  {
    CodesDistinct();
    assert AllCodes[0] == CmdNone && AllCodes[1] == CmdCreateCloudPlatform && AllCodes[2] == CmdListCommunityPlatforms;
    assert AllCodes[3] == CmdListPrivatePlatforms && AllCodes[4] == CmdExit;
    LeafWellFormed(CreateCloud.desc, CreateCloud.code, CreateCloud.posArgs, CreateCloud.args);
    LeafWellFormed(ListCommunity.desc, ListCommunity.code, [], map[]);
    LeafWellFormed(ListPrivate.desc, ListPrivate.code, [], map[]);
    LeafWellFormed(Exit.desc, Exit.code, [], map[]);
  }

  lemma CreateWellFormed()
    ensures WellFormed(Create)
  {
    LeavesWellFormed();
    assert IsLower("cloud") && IsLower("platform");
    OneChild("cloud", CreateCloud);
    NodeWellFormed(CreatePlatform.desc, CreatePlatform.sub, CreatePlatform.args);
    OneChild("platform", CreatePlatform);
    NodeWellFormed(Create.desc, Create.sub, Create.args);
  }

  lemma ListPlatformWellFormed()
    ensures WellFormed(ListPlatform)
  {
    LeavesWellFormed();
    assert IsLower("community") && IsLower("private");
    ThreeChildren("community", ListCommunity, "private", ListPrivate, "private", ListPrivate);
    assert ListPlatform.sub == map["community" := ListCommunity, "private" := ListPrivate, "private" := ListPrivate];
    NodeWellFormed(ListPlatform.desc, ListPlatform.sub, ListPlatform.args);
  }

  lemma ListWellFormed()
    ensures WellFormed(List)
  {
    ListPlatformWellFormed();
    assert IsLower("platform");
    OneChild("platform", ListPlatform);
    NodeWellFormed(List.desc, List.sub, List.args);
  }

  /** The command table is well formed. */
  lemma CommandSpecWellFormed()
    ensures WellFormed(Root(CommandSpec))
  {
    LeavesWellFormed();
    CreateWellFormed();
    ListWellFormed();
    TopLevel(Create, List, Exit);
  }

  lemma TopLevel(create: Frag, list: Frag, exit: Frag)
    requires WellFormed(create) && WellFormed(list) && WellFormed(exit)
    ensures WellFormed(Root(map["create" := create, "list" := list, "exit" := exit]))
  {
    assert IsLower("create") && IsLower("list") && IsLower("exit");
    ThreeChildren("create", create, "list", list, "exit", exit);
    NodeWellFormed("", map["create" := create, "list" := list, "exit" := exit], map[]);
  }

  /** In a well-formed tree, a lower-case command word always descends to the child it names. */
  lemma WalkChild(r: Reached, k: string)
    requires WellFormed(r.frag) && r.frag.code == 0 && k in r.frag.sub
    ensures Walk(r, [k]) == Some(Enter(r, r.frag.sub[k]))
    ensures WellFormed(r.frag.sub[k])
  {
    ToLowerFixed(k);
    assert [k][1..] == [];
  }
}

=== FILE: compare.dfy ===
/**
 * The client's change-detection helpers: does an optional value (or an
 * optional list of values) differ from another? An absent value is `None`.
 */
module Compare {
  import opened Wrappers

  /**
   * `stringsDiffer`, `boolsDiffer` and `intsDiffer`, which share one body.
   * With a first value present they answer as intended; with it absent the
   * answer is inverted, so an absent first value "differs" exactly when the
   * second is absent too.
   */
  function ValuesDiffer<T(==)>(a: Option<T>, b: Option<T>): (r: bool)
    ensures a.Some? ==> r == ValuesDifferCorrected(a, b)
    ensures a.None? ==> r == !ValuesDifferCorrected(a, b)
  {
    if a.None? then b.None?
    else if b.None? then true
    else a.value != b.value
  }

  /** Two absent values are reported as differing, and absent against present as the same. */
  lemma ValuesDifferInverted<T>(x: T)
    ensures ValuesDiffer<T>(None, None)
    ensures !ValuesDiffer(None, Some(x))
    ensures ValuesDiffer(Some(x), None)
  {
  }

  /** The intended comparison: absent differs from present, and two absent values agree. */
  function ValuesDifferCorrected<T(==)>(a: Option<T>, b: Option<T>): (r: bool)
    ensures r <==> a != b
  {
    if a.None? then b.Some?
    else if b.None? then true
    else a.value != b.value
  }

  /** Element by element: two lists differ when their lengths do, or at the first unequal position. */
  method ElementsDiffer<T(==)>(a: seq<T>, b: seq<T>) returns (r: bool)
    ensures r <==> a != b
  {
    if |a| != |b| {
      return true;
    }
    var i := 0;
    while i < |a|
      invariant 0 <= i <= |a|
      invariant forall j :: 0 <= j < i ==> a[j] == b[j]
    {
      if a[i] != b[i] {
        return true;
      }
      i := i + 1;
    }
    assert a == b;
    return false;
  }

  /**
   * `stringArraysDiffer` and `intArraysDiffer`: the same treatment of
   * absent lists, then a length check and an element-by-element scan.
   */
  method SeqsDiffer<T(==)>(a: Option<seq<T>>, b: Option<seq<T>>) returns (r: bool)
    ensures a.None? ==> (r <==> b.None?)
    ensures a.Some? && b.None? ==> r
    ensures a.Some? && b.Some? && |a.value| != |b.value| ==> r
    ensures a.Some? && b.Some? && |a.value| == |b.value| ==>
      (!r <==> forall i :: 0 <= i < |a.value| ==> a.value[i] == b.value[i])
    ensures r == ValuesDiffer(a, b)
  {
    if a.None? {
      return b.None?;
    }
    if b.None? {
      return true;
    }
    r := ElementsDiffer(a.value, b.value);
  }

  /** The list helpers inherit the inversion: two absent lists differ, an absent and an empty list do not. */
  method SeqsDifferInverted() returns (bothAbsent: bool, absentAndEmpty: bool)
    ensures bothAbsent && !absentAndEmpty
  {
    bothAbsent := SeqsDiffer<int>(None, None);
    absentAndEmpty := SeqsDiffer<int>(None, Some([]));
  }

  /** The list helpers with the intended treatment of absent lists: they differ exactly when unequal. */
  method SeqsDifferCorrected<T(==)>(a: Option<seq<T>>, b: Option<seq<T>>) returns (r: bool)
    ensures r <==> a != b
  {
    if a.None? {
      return b.Some?;
    }
    if b.None? {
      return true;
    }
    r := ElementsDiffer(a.value, b.value);
  }
}

=== FILE: completion.dfy ===
/**
 * `Suggest`: the best-effort twin of the parser's walk. It never fails; at
 * the token being edited it returns completion candidates, and on a dead end
 * it returns none.
 */
module Completion {
  import opened Strings
  import opened Tokenizer
  import opened Grammar
  import opened Suggestions

  /** The suggestion callbacks, looked up by the id the grammar stores. */
  type Provider = (SuggestId, string) -> seq<Suggestion>

  /**
   * The walk's state: like the parser's, without the handler; used named
   * arguments are removed from `possible`.
   */
  datatype SuggestState = SuggestState(
    ptr: Frag,
    args: map<string, string>,
    argName: string,
    possible: map<string, NamedArg>,
    posArgsDone: bool)

  /** A step either moves on or settles the answer. */
  datatype Step = Next(st: SuggestState) | Done(result: seq<Suggestion>)

  /** The state on arriving at a fragment. */
  function SuggestAt(r: Reached): SuggestState
  {
    SuggestState(r.frag, map[], "", r.named, false)
  }

  /** A hint naming the argument expected, shown beside `text`. */
  function Placeholder(text: string, name: string, desc: string): Suggestion
  {
    Suggestion(text, "<" + name + "> " + desc)
  }

  /** One token of the walk; `isLast` marks the final token, `wsAtEnd` a trailing space. */
  function SuggestStep(call: Provider, st: SuggestState, tok: string, isLast: bool, wsAtEnd: bool): Step
  {
    if st.ptr.code == 0 then
      // Still looking for a complete command
      var word := ToLower(tok);
      if word !in st.ptr.sub then
        if !isLast then Done([]) else Done(FilterHasPrefix(CmdSuggestions(st.ptr.sub), tok, true))
      else
        var c := st.ptr.sub[word];
        Next(st.(ptr := c, possible := st.possible + c.args))
    else if TakesPositional(st.ptr, |st.args|, st.posArgsDone, tok) then
      var arg := st.ptr.posArgs[|st.args|];
      // A value with a space in it cannot be completed
      if isLast && !wsAtEnd && !Contains(tok, " ") then
        if arg.suggest.Some? then Done(call(arg.suggest.value, tok))
        else Done([Placeholder(tok, arg.name, arg.desc)])
      else Next(st.(args := st.args[arg.name := tok]))
    else if st.argName == "" then
      // The leading `-` is stripped but not required
      var name := TrimLeftDash(tok);
      var ok := name in st.possible;
      if isLast && !ok then Done(FilterHasPrefix(ArgSuggestions(st.possible), tok, true))
      else if ok && st.possible[name].flag then
        Next(st.(argName := "", posArgsDone := true, possible := st.possible - {name}))
      else if ok && isLast && wsAtEnd && st.possible[name].suggest.Some? then
        Done(call(st.possible[name].suggest.value, ""))
      else Next(st.(argName := name, posArgsDone := true))
    else if isLast && !wsAtEnd then
      if !Contains(tok, " ") then
        var ok := st.argName in st.possible;
        if ok && st.possible[st.argName].suggest.Some? then Done(call(st.possible[st.argName].suggest.value, tok))
        else Done([Suggestion(tok, if ok then st.possible[st.argName].desc else "")])
      else Done([])
    else
      // A used named argument is not offered again
      Next(st.(possible := st.possible - {st.argName}, args := st.args[st.argName := tok], argName := ""))
  }

  /** What comes next once every token has been walked. */
  function SuggestAtEnd(st: SuggestState, wsAtEnd: bool): seq<Suggestion>
  {
    if !wsAtEnd then []
    else if st.ptr.code == 0 then CmdSuggestions(st.ptr.sub)
    else if |st.args| < |st.ptr.posArgs| && !st.posArgsDone then
      var arg := st.ptr.posArgs[|st.args|];
      [Placeholder("", arg.name, arg.desc)]
    else if st.argName == "" then ArgSuggestions(st.possible)
    else if |st.args| >= |st.ptr.posArgs| && st.argName in st.possible then
      [Placeholder("", st.argName, st.possible[st.argName].desc)]
    else []
  }

  /** The walk over `toks`, stopping as soon as a step settles the answer. */
  function SuggestTokens(call: Provider, st: SuggestState, toks: seq<string>, wsAtEnd: bool): seq<Suggestion>
    decreases |toks|
  {
    if |toks| == 0 then SuggestAtEnd(st, wsAtEnd)
    else
      match SuggestStep(call, st, toks[0], |toks| == 1, wsAtEnd)
      case Done(r) => r
      case Next(next) => SuggestTokens(call, next, toks[1..], wsAtEnd)
  }

  /** `Suggest` on an already tokenized line. */
  function SuggestFromTokens(call: Provider, spec: map<string, Frag>, toks: seq<string>, wsAtEnd: bool): seq<Suggestion>
  {
    if |toks| < 1 then CmdSuggestions(spec)
    else SuggestTokens(call, SuggestAt(Start(spec)), toks, wsAtEnd)
  }

  /** `Suggest`: tokenizes `line` and suggests completions for it. */
  function Suggest(call: Provider, spec: map<string, Frag>, line: string): seq<Suggestion>
  {
    var t := Tokenize(line);
    SuggestFromTokens(call, spec, t.tokens, t.wsAtEnd)
  }

  // ---------------------------------------------------------------------------
  // The descent

  /** Walking command words takes the suggester exactly where `Walk` goes, last word or not. */
  lemma {:induction false} SuggestWalk(call: Provider, r: Reached, words: seq<string>, rest: seq<string>, ws: bool)
    requires Walk(r, words).Some?
    ensures SuggestTokens(call, SuggestAt(r), words + rest, ws)
         == SuggestTokens(call, SuggestAt(Walk(r, words).value), rest, ws)
    decreases |words|
  {
    if |words| > 0 {
      var c := r.frag.sub[ToLower(words[0])];
      assert SuggestStep(call, SuggestAt(r), words[0], |words + rest| == 1, ws) == Next(SuggestAt(Enter(r, c)));
      assert (words + rest)[0] == words[0];
      assert (words + rest)[1..] == words[1..] + rest;
      SuggestWalk(call, Enter(r, c), words[1..], rest, ws);
    } else {
      assert words + rest == rest;
    }
  }

  /** A blank line lists every top-level command, sorted. */
  lemma SuggestBlank(call: Provider, spec: map<string, Frag>)
    ensures var r := Suggest(call, spec, "");
      && |r| == |spec|
      && (forall k :: k in spec ==> Suggestion(k, spec[k].desc) in r)
      && StrictlyIncreasingText(r)
  {
    assert Run(Initial, "") == Initial;
  }

  /** An unknown command word before the last token is a dead end. */
  lemma SuggestDeadEnd(call: Provider, spec: map<string, Frag>, words: seq<string>, t: string, rest: seq<string>, ws: bool)
    requires Walk(Start(spec), words).Some?
    requires var m := Walk(Start(spec), words).value; m.frag.code == 0 && ToLower(t) !in m.frag.sub
    requires |rest| > 0
    ensures SuggestFromTokens(call, spec, words + ([t] + rest), ws) == []
  {
    SuggestWalk(call, Start(spec), words, [t] + rest, ws);
  }

  /** An unknown last command word is completed from the children it is a prefix of, ignoring case. */
  lemma SuggestPartialWord(call: Provider, spec: map<string, Frag>, words: seq<string>, t: string, ws: bool)
    requires Walk(Start(spec), words).Some?
    requires var m := Walk(Start(spec), words).value; m.frag.code == 0 && ToLower(t) !in m.frag.sub
    ensures var m := Walk(Start(spec), words).value;
      SuggestFromTokens(call, spec, words + [t], ws) == FilterHasPrefix(CmdSuggestions(m.frag.sub), t, true)
  {
    SuggestWalk(call, Start(spec), words, [t], ws);
  }

  /**
   * Known command words only: after a space, the children of the fragment
   * reached when it is not yet a command; without one, nothing.
   */
  lemma SuggestAfterWords(call: Provider, spec: map<string, Frag>, words: seq<string>, ws: bool)
    requires |words| > 0 && Walk(Start(spec), words).Some?
    ensures var m := Walk(Start(spec), words).value;
      && SuggestFromTokens(call, spec, words, ws) == SuggestAtEnd(SuggestAt(m), ws)
      && (!ws ==> SuggestFromTokens(call, spec, words, ws) == [])
      && (ws && m.frag.code == 0 ==> SuggestFromTokens(call, spec, words, ws) == CmdSuggestions(m.frag.sub))
  {
    SuggestWalk(call, Start(spec), words, [], ws);
    assert words + [] == words;
  }

  // ---------------------------------------------------------------------------
  // Positional arguments

  /** The state at a complete command `m` with the first `j` positional values filled. */
  function SuggestFilled(m: Reached, ps: seq<string>, j: nat): SuggestState
    requires j <= |ps| <= |m.frag.posArgs|
  {
    SuggestAt(m).(args := PosMap(m.frag.posArgs, ps[..j]))
  }

  lemma SuggestFillStep(call: Provider, m: Reached, ps: seq<string>, j: nat, isLast: bool, ws: bool)
    requires m.frag.code != 0 && DistinctNames(m.frag.posArgs)
    requires j < |ps| <= |m.frag.posArgs| && PlainValues(ps)
    requires !isLast || ws
    ensures SuggestStep(call, SuggestFilled(m, ps, j), ps[j], isLast, ws) == Next(SuggestFilled(m, ps, j + 1))
  {
    var pas := m.frag.posArgs;
    assert ps[..j + 1][..j] == ps[..j];
    PosMapFacts(pas, ps[..j]);
    assert PosMap(pas, ps[..j + 1]) == PosMap(pas, ps[..j])[pas[j].name := ps[j]];
  }

  /** Plain tokens not being edited fill the positional arguments in order. */
  lemma {:induction false} SuggestFill(call: Provider, m: Reached, ps: seq<string>, j: nat, rest: seq<string>, ws: bool)
    requires m.frag.code != 0 && DistinctNames(m.frag.posArgs)
    requires j <= |ps| <= |m.frag.posArgs| && PlainValues(ps)
    requires |rest| > 0 || ws
    ensures SuggestTokens(call, SuggestFilled(m, ps, j), ps[j..] + rest, ws)
         == SuggestTokens(call, SuggestFilled(m, ps, |ps|), rest, ws)
    decreases |ps| - j
  {
    if j == |ps| {
      assert ps[j..] + rest == rest;
    } else {
      SuffixAppend(ps, j, rest);
      SuggestFillStep(call, m, ps, j, |ps[j..] + rest| == 1, ws);
      SuggestFill(call, m, ps, j + 1, rest, ws);
    }
  }

  /** Command words then positional values reach the filled state. */
  lemma SuggestUpTo(call: Provider, spec: map<string, Frag>, words: seq<string>, ps: seq<string>, rest: seq<string>, ws: bool)
    requires Walk(Start(spec), words).Some?
    requires var m := Walk(Start(spec), words).value;
      m.frag.code != 0 && DistinctNames(m.frag.posArgs) && |ps| <= |m.frag.posArgs| && PlainValues(ps)
    requires |rest| > 0 || ws
    ensures |words| > 0
    ensures var m := Walk(Start(spec), words).value;
      SuggestFromTokens(call, spec, words + ps + rest, ws) == SuggestTokens(call, SuggestFilled(m, ps, |ps|), rest, ws)
    ensures var m := Walk(Start(spec), words).value;
      |ps| == |m.frag.posArgs| ==> SuggestAwaitingName(SuggestFilled(m, ps, |ps|))
  {
    var m := Walk(Start(spec), words).value;
    PosMapFacts(m.frag.posArgs, ps[..|ps|]);
    assert words + ps + rest == words + (ps + rest);
    SuggestWalk(call, Start(spec), words, ps + rest, ws);
    assert ps[0..] == ps;
    assert SuggestAt(m) == SuggestFilled(m, ps, 0);
    SuggestFill(call, m, ps, 0, rest, ws);
  }

  /**
   * The positional being typed is completed by its callback, or echoed with a
   * hint naming it; a value holding a space gets nothing. A `-` token counts
   * as the value of a required positional; only an optional one is skipped.
   */
  lemma SuggestPositionalInProgress(call: Provider, spec: map<string, Frag>, words: seq<string>, ps: seq<string>, t: string)
    requires Walk(Start(spec), words).Some?
    requires var m := Walk(Start(spec), words).value;
      m.frag.code != 0 && DistinctNames(m.frag.posArgs) && |ps| < |m.frag.posArgs| && PlainValues(ps)
    requires !(IsNamedToken(t) && Walk(Start(spec), words).value.frag.posArgs[|ps|].opt)
    ensures var arg := Walk(Start(spec), words).value.frag.posArgs[|ps|];
      SuggestFromTokens(call, spec, words + ps + [t], false)
        == if Contains(t, " ") then []
           else if arg.suggest.Some? then call(arg.suggest.value, t)
           else [Placeholder(t, arg.name, arg.desc)]
  {
    SuggestUpTo(call, spec, words, ps, [t], false);
    var m := Walk(Start(spec), words).value;
    PosMapFacts(m.frag.posArgs, ps[..|ps|]);
  }

  /** After a space with a positional still open, the hint for that positional. */
  lemma SuggestNextPositional(call: Provider, spec: map<string, Frag>, words: seq<string>, ps: seq<string>)
    requires Walk(Start(spec), words).Some?
    requires var m := Walk(Start(spec), words).value;
      m.frag.code != 0 && DistinctNames(m.frag.posArgs) && |ps| < |m.frag.posArgs| && PlainValues(ps)
    ensures var arg := Walk(Start(spec), words).value.frag.posArgs[|ps|];
      SuggestFromTokens(call, spec, words + ps, true) == [Placeholder("", arg.name, arg.desc)]
  {
    SuggestUpTo(call, spec, words, ps, [], true);
    assert words + ps + [] == words + ps;
    var m := Walk(Start(spec), words).value;
    PosMapFacts(m.frag.posArgs, ps[..|ps|]);
  }

  // ---------------------------------------------------------------------------
  // Named arguments

  /** After a space with every positional filled, every named argument accepted on the path. */
  lemma SuggestNamedAfterPositionals(call: Provider, spec: map<string, Frag>, words: seq<string>, ps: seq<string>)
    requires Walk(Start(spec), words).Some?
    requires var m := Walk(Start(spec), words).value;
      m.frag.code != 0 && DistinctNames(m.frag.posArgs) && |ps| == |m.frag.posArgs| && PlainValues(ps)
    ensures SuggestFromTokens(call, spec, words + ps, true) == ArgSuggestions(Walk(Start(spec), words).value.named)
  {
    SuggestUpTo(call, spec, words, ps, [], true);
    assert words + ps + [] == words + ps;
    var m := Walk(Start(spec), words).value;
    PosMapFacts(m.frag.posArgs, ps[..|ps|]);
  }

  /** The named-argument phase of completion: as for the parser, with `argName` the awaited name. */
  predicate SuggestAwaitingName(st: SuggestState)
  {
    st.ptr.code != 0 && st.argName == "" && (st.posArgsDone || |st.args| >= |st.ptr.posArgs|)
  }

  /** An accepted name other than the empty one, and no flag: it awaits a value. */
  predicate AwaitsValue(st: SuggestState, name: string)
  {
    name in st.possible && !st.possible[name].flag && name != ""
  }

  /** In the named-argument phase, whatever tokens led there, after a space the names still accepted are offered. */
  lemma SuggestNamedPhaseEnd(call: Provider, st: SuggestState)
    requires SuggestAwaitingName(st)
    ensures SuggestTokens(call, st, [], true) == ArgSuggestions(st.possible)
  {
  }

  /** In the same phase, a last token naming no accepted argument is completed from the accepted names. */
  lemma SuggestNamedPhaseUnknown(call: Provider, st: SuggestState, t: string, ws: bool)
    requires SuggestAwaitingName(st) && TrimLeftDash(t) !in st.possible
    ensures SuggestTokens(call, st, [t], ws) == FilterHasPrefix(ArgSuggestions(st.possible), t, true)
  {
    assert st.ptr.code != 0 && !TakesPositional(st.ptr, |st.args|, st.posArgsDone, t);
  }

  /**
   * In the same phase, a flag, `-` or not, is consumed and dropped from the
   * offer, and the walk is back in the phase.
   */
  lemma SuggestNamedPhaseFlag(call: Provider, st: SuggestState, t: string, rest: seq<string>, ws: bool)
    requires SuggestAwaitingName(st) && TrimLeftDash(t) in st.possible && st.possible[TrimLeftDash(t)].flag
    ensures var next := st.(posArgsDone := true, possible := st.possible - {TrimLeftDash(t)});
      SuggestAwaitingName(next) && SuggestTokens(call, st, [t] + rest, ws) == SuggestTokens(call, next, rest, ws)
  {
    var next := st.(posArgsDone := true, possible := st.possible - {TrimLeftDash(t)});
    assert ([t] + rest)[0] == t && ([t] + rest)[1..] == rest;
    assert SuggestStep(call, st, t, |rest| == 0, ws) == Next(next);
  }

  /**
   * In the same phase, an accepted name that is no flag, followed by a token
   * not being edited, stores that token under the name, which is then not
   * offered again, and the walk is back in the phase.
   */
  lemma SuggestNamedValuePhase(call: Provider, st: SuggestState, t: string, v: string, rest: seq<string>, ws: bool)
    requires SuggestAwaitingName(st) && AwaitsValue(st, TrimLeftDash(t))
    requires |rest| > 0 || ws
    ensures var next := st.(posArgsDone := true, possible := st.possible - {TrimLeftDash(t)},
                            args := st.args[TrimLeftDash(t) := v]);
      SuggestAwaitingName(next) && SuggestTokens(call, st, [t, v] + rest, ws) == SuggestTokens(call, next, rest, ws)
  {
    var name := TrimLeftDash(t);
    var waiting := st.(argName := name, posArgsDone := true);
    assert ([t, v] + rest)[0] == t && ([t, v] + rest)[1..] == [v] + rest;
    assert ([v] + rest)[0] == v && ([v] + rest)[1..] == rest;
    assert SuggestStep(call, st, t, false, ws) == Next(waiting);
    assert SuggestStep(call, waiting, v, |rest| == 0, ws)
        == Next(waiting.(possible := st.possible - {name}, args := st.args[name := v], argName := ""));
  }

  /**
   * A last token that names no accepted argument (after stripping any leading
   * `-`) is completed from the accepted names it is a prefix of.
   */
  lemma SuggestPartialNamed(call: Provider, spec: map<string, Frag>, words: seq<string>, ps: seq<string>, t: string, ws: bool)
    requires Walk(Start(spec), words).Some?
    requires var m := Walk(Start(spec), words).value;
      m.frag.code != 0 && DistinctNames(m.frag.posArgs) && |ps| == |m.frag.posArgs| && PlainValues(ps)
      && TrimLeftDash(t) !in m.named
    ensures SuggestFromTokens(call, spec, words + ps + [t], ws)
         == FilterHasPrefix(ArgSuggestions(Walk(Start(spec), words).value.named), t, true)
  {
    SuggestUpTo(call, spec, words, ps, [t], ws);
    var m := Walk(Start(spec), words).value;
    PosMapFacts(m.frag.posArgs, ps[..|ps|]);
  }

  lemma LowerKeepsDash(s: string)
    ensures HasPrefix(ToLower(s), "-") <==> HasPrefix(s, "-")
  {
  }

  /**
   * An extra plain word after the positionals is a dead end for completion:
   * every candidate starts with `-` and the word does not.
   */
  lemma SuggestExtraWord(call: Provider, spec: map<string, Frag>, words: seq<string>, ps: seq<string>, t: string, ws: bool)
    requires Walk(Start(spec), words).Some?
    requires var m := Walk(Start(spec), words).value;
      m.frag.code != 0 && DistinctNames(m.frag.posArgs) && |ps| == |m.frag.posArgs| && PlainValues(ps)
      && t != "" && !IsNamedToken(t) && t !in m.named
    ensures SuggestFromTokens(call, spec, words + ps + [t], ws) == []
  {
    var named := Walk(Start(spec), words).value.named;
    assert TrimLeftDash(t) == t;
    SuggestPartialNamed(call, spec, words, ps, t, ws);
    var all := ArgSuggestions(named);
    LowerKeepsDash(t);
    assert ToLower(t)[0] != '-';
    forall i | 0 <= i < |all|
      ensures !MatchesPrefix(all[i], t, true)
    {
      assert IsArgEntry(all[i], named);
      LowerKeepsDash(all[i].text);
    }
    FilterHasPrefixNone(all, t, true);
  }

  /**
   * A flag, with or without its `-`, is consumed and removed: after a space
   * the remaining accepted arguments are offered, and never the flag itself.
   */
  lemma SuggestFlagConsumed(call: Provider, spec: map<string, Frag>, words: seq<string>, ps: seq<string>, t: string)
    requires Walk(Start(spec), words).Some?
    requires var m := Walk(Start(spec), words).value;
      m.frag.code != 0 && DistinctNames(m.frag.posArgs) && |ps| == |m.frag.posArgs| && PlainValues(ps)
      && TrimLeftDash(t) in m.named && m.named[TrimLeftDash(t)].flag
    ensures var named := Walk(Start(spec), words).value.named;
      SuggestFromTokens(call, spec, words + ps + [t], true) == ArgSuggestions(named - {TrimLeftDash(t)})
    ensures var r := SuggestFromTokens(call, spec, words + ps + [t], true);
      forall i :: 0 <= i < |r| ==> r[i].text != "-" + TrimLeftDash(t)
  {
    SuggestUpTo(call, spec, words, ps, [t], true);
    var m := Walk(Start(spec), words).value;
    PosMapFacts(m.frag.posArgs, ps[..|ps|]);
    var name := TrimLeftDash(t);
    var r := ArgSuggestions(m.named - {name});
    forall i | 0 <= i < |r|
      ensures r[i].text != "-" + name
    {
      assert IsArgEntry(r[i], m.named - {name});
    }
  }

  /**
   * An accepted, non-flag argument name (with or without its `-`) followed by
   * a space: its callback with the empty string, or a hint naming it.
   */
  lemma SuggestValueExpected(call: Provider, spec: map<string, Frag>, words: seq<string>, ps: seq<string>, t: string)
    requires Walk(Start(spec), words).Some?
    requires var m := Walk(Start(spec), words).value;
      m.frag.code != 0 && DistinctNames(m.frag.posArgs) && |ps| == |m.frag.posArgs| && PlainValues(ps)
      && TrimLeftDash(t) in m.named && !m.named[TrimLeftDash(t)].flag && TrimLeftDash(t) != ""
    ensures var arg := Walk(Start(spec), words).value.named[TrimLeftDash(t)];
      SuggestFromTokens(call, spec, words + ps + [t], true)
        == if arg.suggest.Some? then call(arg.suggest.value, "")
           else [Placeholder("", TrimLeftDash(t), arg.desc)]
  {
    SuggestUpTo(call, spec, words, ps, [t], true);
    var m := Walk(Start(spec), words).value;
    PosMapFacts(m.frag.posArgs, ps[..|ps|]);
  }

  /** The value being typed for a named argument: its callback, or an echo with its description; nothing when it holds a space. */
  lemma SuggestValueInProgress(call: Provider, spec: map<string, Frag>, words: seq<string>, ps: seq<string>, t: string, v: string)
    requires Walk(Start(spec), words).Some?
    requires var m := Walk(Start(spec), words).value;
      m.frag.code != 0 && DistinctNames(m.frag.posArgs) && |ps| == |m.frag.posArgs| && PlainValues(ps)
      && TrimLeftDash(t) in m.named && !m.named[TrimLeftDash(t)].flag && TrimLeftDash(t) != ""
    ensures var arg := Walk(Start(spec), words).value.named[TrimLeftDash(t)];
      SuggestFromTokens(call, spec, words + ps + [t, v], false)
        == if Contains(v, " ") then []
           else if arg.suggest.Some? then call(arg.suggest.value, v)
           else [Suggestion(v, arg.desc)]
  {
    SuggestUpTo(call, spec, words, ps, [t, v], false);
    var m := Walk(Start(spec), words).value;
    PosMapFacts(m.frag.posArgs, ps[..|ps|]);
    var st := SuggestFilled(m, ps, |ps|);
    var name := TrimLeftDash(t);
    assert SuggestStep(call, st, t, false, false) == Next(st.(argName := name, posArgsDone := true));
    assert [t, v][1..] == [v];
  }

  /** Once a named argument has its value, after a space the other accepted arguments are offered, not it. */
  lemma SuggestAfterValue(call: Provider, spec: map<string, Frag>, words: seq<string>, ps: seq<string>, t: string, v: string)
    requires Walk(Start(spec), words).Some?
    requires var m := Walk(Start(spec), words).value;
      m.frag.code != 0 && DistinctNames(m.frag.posArgs) && |ps| == |m.frag.posArgs| && PlainValues(ps)
      && TrimLeftDash(t) in m.named && !m.named[TrimLeftDash(t)].flag && TrimLeftDash(t) != ""
    ensures var named := Walk(Start(spec), words).value.named;
      SuggestFromTokens(call, spec, words + ps + [t, v], true) == ArgSuggestions(named - {TrimLeftDash(t)})
  {
    SuggestUpTo(call, spec, words, ps, [t, v], true);
    var m := Walk(Start(spec), words).value;
    PosMapFacts(m.frag.posArgs, ps[..|ps|]);
    var st := SuggestFilled(m, ps, |ps|);
    var name := TrimLeftDash(t);
    var st1 := st.(argName := name, posArgsDone := true);
    assert SuggestStep(call, st, t, false, true) == Next(st1);
    var st2 := st1.(possible := st1.possible - {name}, args := st1.args[name := v], argName := "");
    assert !TakesPositional(st1.ptr, |st1.args|, st1.posArgsDone, v);
    assert SuggestStep(call, st1, v, true, true) == Next(st2);
    assert SuggestAtEnd(st2, true) == ArgSuggestions(m.named - {name});
    assert [t, v][1..] == [v] && [v][1..] == [];
    assert SuggestTokens(call, st1, [v], true) == SuggestTokens(call, st2, [], true);
    assert SuggestTokens(call, st, [t, v], true) == SuggestTokens(call, st1, [v], true);
  }
}

=== FILE: grammar.dfy ===
/**
 * The command grammar: a tree of command fragments, each possibly a complete
 * command with positional and named arguments, and the parse result.
 */
module Grammar {
  import opened Wrappers
  import opened Strings

  /** Stands for a suggestion callback (`SuggestFn`); the engine never looks inside one. */
  type SuggestId = nat

  /** Stands for a command handler (`HandlerFn`); the engine only copies it. */
  type HandlerId = nat

  /** A positional argument, matched by position right after the command words. */
  datatype PosArg = PosArg(name: string, desc: string, opt: bool, suggest: Option<SuggestId>)

  /** A named argument, written `-name value`, or just `-name` when it is a flag. */
  datatype NamedArg = NamedArg(desc: string, suggest: Option<SuggestId>, flag: bool)

  /**
   * One word of a command. A non-zero `code` marks a complete command; zero
   * means more command words are needed.
   */
  datatype Frag = Frag(
    desc: string,
    posArgs: seq<PosArg>,
    sub: map<string, Frag>,
    args: map<string, NamedArg>,
    code: int,
    handler: Option<HandlerId>)

  /** A parsed command: its code, its argument values by name, and its handler. */
  datatype Command = Command(code: int, args: map<string, string>, handler: Option<HandlerId>)

  /** The synthetic fragment a parse starts from: no code, the whole spec as its children. */
  function Root(spec: map<string, Frag>): Frag
  {
    Frag("", [], spec, map[], 0, None)
  }

  /** A token introduces a named argument when it starts with `-`. */
  predicate IsNamedToken(t: string)
  {
    HasPrefix(t, "-")
  }

  /** Names of a fragment's positional arguments. */
  function PosNames(f: Frag): set<string>
  {
    set i | 0 <= i < |f.posArgs| :: f.posArgs[i].name
  }

  /**
   * Where a walk down the command tree has got to: the fragment, the named
   * arguments declared along the way (deeper declarations win), and the
   * deepest handler seen.
   */
  datatype Reached = Reached(frag: Frag, named: map<string, NamedArg>, handler: Option<HandlerId>)

  function Start(spec: map<string, Frag>): Reached
  {
    Reached(Root(spec), map[], None)
  }

  /** Moving to a child: its named args join the accumulated ones, its handler replaces the last one. */
  function Enter(r: Reached, child: Frag): Reached
  {
    Reached(child, r.named + child.args, if child.handler.Some? then child.handler else r.handler)
  }

  /**
   * Follows `words` as command words, each lower-cased and looked up among the
   * children. Fails on an unknown word, or when a word remains after a
   * complete command has been reached.
   */
  function Walk(r: Reached, words: seq<string>): (w: Option<Reached>)
    ensures w.Some? && |words| > 0 ==> r.frag.code == 0
    ensures w.Some? ==> r.named.Keys <= w.value.named.Keys
    ensures w.Some? && r.handler.Some? ==> w.value.handler.Some?
    decreases |words|
  {
    if |words| == 0 then Some(r)
    else if r.frag.code != 0 || ToLower(words[0]) !in r.frag.sub then None
    else Walk(Enter(r, r.frag.sub[ToLower(words[0])]), words[1..])
  }

  /** Walking `a + b` is walking `a`, then `b` from where `a` ended. */
  lemma {:induction false} WalkAppend(r: Reached, a: seq<string>, b: seq<string>)
    ensures Walk(r, a + b) == match Walk(r, a) case None => None case Some(m) => Walk(m, b)
    decreases |a|
  {
    if |a| == 0 {
      assert a + b == b;
    } else {
      assert (a + b)[0] == a[0];
      assert (a + b)[1..] == a[1..] + b;
      if r.frag.code == 0 && ToLower(a[0]) in r.frag.sub {
        WalkAppend(Enter(r, r.frag.sub[ToLower(a[0])]), a[1..], b);
      }
    }
  }

  /** A lower-case command word of a fragment that is no command descends to the child it names. */
  lemma WalkWord(r: Reached, k: string)
    requires r.frag.code == 0 && k in r.frag.sub && IsLower(k)
    ensures Walk(r, [k]) == Some(Enter(r, r.frag.sub[k]))
  {
    ToLowerFixed(k);
    assert [k][1..] == [];
  }

  /** Splitting the head off a suffix followed by more tokens. */
  lemma SuffixAppend<T>(a: seq<T>, j: nat, b: seq<T>)
    requires j < |a|
    ensures (a[j..] + b)[0] == a[j] && (a[j..] + b)[1..] == a[j + 1..] + b
  {
  }

  /**
   * The test both walks use to decide that `tok` fills the next positional
   * argument, `filled` of them being filled already: one is still open,
   * named arguments have not started, and the token is not a `-` word
   * skipping an optional positional.
   */
  predicate TakesPositional(f: Frag, filled: nat, posArgsDone: bool, tok: string)
  {
    filled < |f.posArgs| && !posArgsDone && !(IsNamedToken(tok) && f.posArgs[filled].opt)
  }

  /** No two positional arguments share a name. */
  predicate DistinctNames(pas: seq<PosArg>)
  {
    forall i, j :: 0 <= i < j < |pas| ==> pas[i].name != pas[j].name
  }

  /** Tokens that can fill positional arguments: none starts with `-`. */
  predicate PlainValues(ps: seq<string>)
  {
    forall i :: 0 <= i < |ps| ==> !IsNamedToken(ps[i])
  }

  /** The values `ps` stored under the names of the first `|ps|` positional arguments. */
  function PosMap(pas: seq<PosArg>, ps: seq<string>): map<string, string>
    requires |ps| <= |pas|
  {
    if |ps| == 0 then map[]
    else
      var n := |ps| - 1;
      PosMap(pas, ps[..n])[pas[n].name := ps[n]]
  }

  /** `PosMap`'s keys are the names of the first `|ps|` positional arguments. */
  lemma {:induction false} PosMapKeys(pas: seq<PosArg>, ps: seq<string>)
    requires |ps| <= |pas|
    ensures forall k :: k in PosMap(pas, ps) ==> exists i :: 0 <= i < |ps| && pas[i].name == k
    ensures forall i :: 0 <= i < |ps| ==> pas[i].name in PosMap(pas, ps)
  {
    if |ps| > 0 {
      PosMapKeys(pas, ps[..|ps| - 1]);
    }
  }

  /**
   * With distinct names, `PosMap` holds exactly one entry per value, each
   * under its own positional's name.
   */
  lemma {:induction false} PosMapFacts(pas: seq<PosArg>, ps: seq<string>)
    requires |ps| <= |pas| && DistinctNames(pas)
    ensures |PosMap(pas, ps)| == |ps|
    ensures forall i :: 0 <= i < |ps| ==> pas[i].name in PosMap(pas, ps) && PosMap(pas, ps)[pas[i].name] == ps[i]
  {
    if |ps| > 0 {
      var n := |ps| - 1;
      var m := PosMap(pas, ps[..n]);
      PosMapFacts(pas, ps[..n]);
      PosMapKeys(pas, ps[..n]);
      assert pas[n].name !in m;
      forall i | 0 <= i < n
        ensures m[pas[i].name] == ps[i]
      {
        assert ps[..n][i] == ps[i];
      }
    }
  }
}

=== FILE: parser.dfy ===
/**
 * `ParseCommand`: the strict walk. It descends the command tree one
 * lower-cased word at a time, then fills positional arguments in order, then
 * reads named arguments and flags, and fails on the first token that does not
 * fit.
 */
module Parser {
  import opened Wrappers
  import opened Strings
  import opened Tokenizer
  import opened Grammar

  /** Why a line does not parse; one constructor per error the parser reports. */
  datatype ParseError =
    | EmptyCommand
    | UnrecognisedToken(token: string)
    | UnexpectedNamedArg(token: string, expected: string)
    | ExpectedNamedArg(token: string)
    | UnknownArgument(name: string)
    | MissingPositional(name: string)
    | IncompleteArgument(name: string)
    | IncompleteCommand

  /**
   * The fold's state: the current fragment, the argument values so far, the
   * named argument awaiting its value ("" when none), the named arguments
   * accepted so far down the path, the deepest handler, and whether named
   * arguments have begun.
   */
  datatype ParseState = ParseState(
    ptr: Frag,
    args: map<string, string>,
    namedArg: string,
    possible: map<string, NamedArg>,
    handler: Option<HandlerId>,
    posArgsDone: bool)

  /** The state on arriving at a fragment, before any argument. */
  function ParseAt(r: Reached): ParseState
  {
    ParseState(r.frag, map[], "", r.named, r.handler, false)
  }

  /** Flag-ness as the parser reads it: only from the current fragment's own named arguments. */
  predicate IsLeafFlag(f: Frag, name: string)
  {
    name in f.args && f.args[name].flag
  }

  /** One token of the walk. */
  function ParseStep(st: ParseState, tok: string): Result<ParseState, ParseError>
  {
    if st.ptr.code == 0 then
      // Still looking for a complete command
      var word := ToLower(tok);
      if word !in st.ptr.sub then Failure(UnrecognisedToken(tok))
      else
        var c := st.ptr.sub[word];
        Success(st.(ptr := c, possible := st.possible + c.args,
                    handler := if c.handler.Some? then c.handler else st.handler))
    else if TakesPositional(st.ptr, |st.args|, st.posArgsDone, tok) then
      var argName := st.ptr.posArgs[|st.args|].name;
      if IsNamedToken(tok) then Failure(UnexpectedNamedArg(tok, argName))
      else Success(st.(args := st.args[argName := tok]))
    else if st.namedArg == "" then
      if !IsNamedToken(tok) then Failure(ExpectedNamedArg(tok))
      else
        var name := TrimLeftDash(tok);
        if name !in st.possible then Failure(UnknownArgument(name))
        else if IsLeafFlag(st.ptr, name) then
          Success(st.(posArgsDone := true, args := st.args[name := ""], namedArg := ""))
        else Success(st.(posArgsDone := true, namedArg := name))
    else
      Success(st.(args := st.args[st.namedArg := tok], namedArg := ""))
  }

  /** The walk over `toks`, stopping at the first error. */
  function ParseTokens(st: ParseState, toks: seq<string>): Result<ParseState, ParseError>
    decreases |toks|
  {
    if |toks| == 0 then Success(st)
    else
      match ParseStep(st, toks[0])
      case Failure(e) => Failure(e)
      case Success(next) => ParseTokens(next, toks[1..])
  }

  /** The checks once the tokens run out. */
  function Finish(st: ParseState): Result<Command, ParseError>
  {
    if |st.args| < |st.ptr.posArgs| && !st.posArgsDone then
      Failure(MissingPositional(st.ptr.posArgs[|st.args|].name))
    else if st.namedArg != "" then Failure(IncompleteArgument(st.namedArg))
    else if st.ptr.code != 0 then Success(Command(st.ptr.code, st.args, st.handler))
    else Failure(IncompleteCommand)
  }

  /** `ParseCommand` on an already tokenized line. */
  function ParseTokenList(spec: map<string, Frag>, toks: seq<string>): Result<Command, ParseError>
  {
    if |toks| < 1 then Failure(EmptyCommand)
    else
      match ParseTokens(ParseAt(Start(spec)), toks)
      case Failure(e) => Failure(e)
      case Success(st) => Finish(st)
  }

  /** `ParseCommand`: tokenizes `line` and parses the tokens. */
  function ParseCommand(spec: map<string, Frag>, line: string): Result<Command, ParseError>
  {
    ParseTokenList(spec, Tokenize(line).tokens)
  }

  // ---------------------------------------------------------------------------
  // The descent

  /** Walking command words takes the parser exactly where `Walk` goes. */
  lemma {:induction false} ParseWalk(r: Reached, words: seq<string>, rest: seq<string>)
    requires Walk(r, words).Some?
    ensures ParseTokens(ParseAt(r), words + rest) == ParseTokens(ParseAt(Walk(r, words).value), rest)
    decreases |words|
  {
    if |words| > 0 {
      var c := r.frag.sub[ToLower(words[0])];
      assert ParseStep(ParseAt(r), words[0]) == Success(ParseAt(Enter(r, c)));
      assert (words + rest)[0] == words[0];
      assert (words + rest)[1..] == words[1..] + rest;
      ParseWalk(Enter(r, c), words[1..], rest);
    } else {
      assert words + rest == rest;
    }
  }

  /**
   * What the walk keeps true once a complete command is reached: stored
   * names are positional names or accepted named arguments, values of the
   * fragment's flags are empty, and an awaited name is an accepted,
   * non-flag argument.
   */
  ghost predicate LeafInvariant(st: ParseState)
  {
    && (forall k :: k in st.args ==> k in PosNames(st.ptr) || k in st.possible)
    && (forall k :: k in st.args && IsLeafFlag(st.ptr, k) && k !in PosNames(st.ptr) ==> st.args[k] == "")
    && (st.namedArg != "" ==> st.namedArg in st.possible && !IsLeafFlag(st.ptr, st.namedArg))
  }

  /** After a complete command is reached, the fragment, the accepted named args and the handler stay fixed. */
  lemma {:induction false} LeafPhase(st: ParseState, toks: seq<string>)
    requires st.ptr.code != 0 && LeafInvariant(st)
    requires ParseTokens(st, toks).Success?
    ensures var fin := ParseTokens(st, toks).value;
      && fin.ptr == st.ptr && fin.possible == st.possible && fin.handler == st.handler
      && LeafInvariant(fin)
    decreases |toks|
  {
    if |toks| > 0 {
      var next := ParseStep(st, toks[0]).value;
      if TakesPositional(st.ptr, |st.args|, st.posArgsDone, toks[0]) {
        assert st.ptr.posArgs[|st.args|].name in PosNames(st.ptr);
      }
      assert LeafInvariant(next);
      LeafPhase(next, toks[1..]);
    }
  }

  /** A successful walk from `r` either stays among command words or reaches a complete command by a prefix of the tokens. */
  lemma {:induction false} ParseDescent(r: Reached, toks: seq<string>)
    requires ParseTokens(ParseAt(r), toks).Success?
    ensures var fin := ParseTokens(ParseAt(r), toks).value;
      fin.ptr.code != 0 ==>
        exists k :: 0 <= k <= |toks| && Walk(r, toks[..k]).Some?
          && var m := Walk(r, toks[..k]).value;
          && m.frag.code != 0 && fin.ptr == m.frag && fin.possible == m.named
          && fin.handler == m.handler && LeafInvariant(fin)
    decreases |toks|
  {
    var fin := ParseTokens(ParseAt(r), toks).value;
    if r.frag.code != 0 {
      LeafPhase(ParseAt(r), toks);
      assert toks[..0] == [];
      assert Walk(r, toks[..0]) == Some(r);
    } else if |toks| > 0 {
      var c := r.frag.sub[ToLower(toks[0])];
      assert ParseStep(ParseAt(r), toks[0]) == Success(ParseAt(Enter(r, c)));
      ParseDescent(Enter(r, c), toks[1..]);
      if fin.ptr.code != 0 {
        var k :| 0 <= k <= |toks[1..]| && Walk(Enter(r, c), toks[1..][..k]).Some?
          && var m := Walk(Enter(r, c), toks[1..][..k]).value;
          && m.frag.code != 0 && fin.ptr == m.frag && fin.possible == m.named
          && fin.handler == m.handler && LeafInvariant(fin);
        assert toks[..k + 1][0] == toks[0] && toks[..k + 1][1..] == toks[1..][..k];
        assert Walk(r, toks[..k + 1]) == Walk(Enter(r, c), toks[1..][..k]);
      }
    }
  }

  /** No tokens: `EmptyCommand`; and that is the only way to get it. */
  lemma ParseEmpty(spec: map<string, Frag>, toks: seq<string>)
    ensures ParseTokenList(spec, toks) == Failure(EmptyCommand) <==> |toks| == 0
  {
    if |toks| > 0 {
      NeverEmptyCommand(ParseAt(Start(spec)), toks);
    }
  }

  lemma {:induction false} NeverEmptyCommand(st: ParseState, toks: seq<string>)
    ensures ParseTokens(st, toks) != Failure(EmptyCommand)
    ensures ParseTokens(st, toks).Success? ==> Finish(ParseTokens(st, toks).value) != Failure(EmptyCommand)
    decreases |toks|
  {
    if |toks| > 0 && ParseStep(st, toks[0]).Success? {
      NeverEmptyCommand(ParseStep(st, toks[0]).value, toks[1..]);
    }
  }

  /**
   * A parsed command is the one named by its leading words: the code of the
   * first complete command their lower-cased lookup reaches, the deepest
   * handler on that path, and argument names that are that command's
   * positional names or named arguments declared along the path, flags of
   * the command itself holding "".
   */
  lemma ParseSuccessFollowsPath(spec: map<string, Frag>, toks: seq<string>)
    requires ParseTokenList(spec, toks).Success?
    ensures var cmd := ParseTokenList(spec, toks).value;
      exists k :: 0 < k <= |toks| && Walk(Start(spec), toks[..k]).Some?
        && var m := Walk(Start(spec), toks[..k]).value;
        && m.frag.code != 0
        && cmd.code == m.frag.code && cmd.code != 0
        && cmd.handler == m.handler
        && (forall a :: a in cmd.args ==> a in PosNames(m.frag) || a in m.named)
        && (forall a :: a in cmd.args && IsLeafFlag(m.frag, a) && a !in PosNames(m.frag) ==> cmd.args[a] == "")
  {
    var fin := ParseTokens(ParseAt(Start(spec)), toks).value;
    ParseDescent(Start(spec), toks);
    var k :| 0 <= k <= |toks| && Walk(Start(spec), toks[..k]).Some?
      && var m := Walk(Start(spec), toks[..k]).value;
      && m.frag.code != 0 && fin.ptr == m.frag && fin.possible == m.named
      && fin.handler == m.handler && LeafInvariant(fin);
    assert k != 0 by {
      assert toks[..0] == [];
    }
  }

  // ---------------------------------------------------------------------------
  // Positional arguments

  /** The state at a complete command `m` with the first `j` positional values filled. */
  function Filled(m: Reached, ps: seq<string>, j: nat): ParseState
    requires j <= |ps| <= |m.frag.posArgs|
  {
    ParseAt(m).(args := PosMap(m.frag.posArgs, ps[..j]))
  }

  /** Plain tokens fill the positional arguments in order. */
  lemma {:induction false} ParseFill(m: Reached, ps: seq<string>, j: nat, rest: seq<string>)
    requires m.frag.code != 0 && DistinctNames(m.frag.posArgs)
    requires j <= |ps| <= |m.frag.posArgs| && PlainValues(ps)
    ensures ParseTokens(Filled(m, ps, j), ps[j..] + rest) == ParseTokens(Filled(m, ps, |ps|), rest)
    decreases |ps| - j
  {
    if j == |ps| {
      assert ps[j..] + rest == rest;
    } else {
      ParseFillStep(m, ps, j);
      SuffixAppend(ps, j, rest);
      ParseFill(m, ps, j + 1, rest);
    }
  }

  lemma ParseFillStep(m: Reached, ps: seq<string>, j: nat)
    requires m.frag.code != 0 && DistinctNames(m.frag.posArgs)
    requires j < |ps| <= |m.frag.posArgs| && PlainValues(ps)
    ensures ParseStep(Filled(m, ps, j), ps[j]) == Success(Filled(m, ps, j + 1))
  {
    var pas := m.frag.posArgs;
    assert ps[..j + 1][..j] == ps[..j];
    PosMapFacts(pas, ps[..j]);
    assert PosMap(pas, ps[..j + 1]) == PosMap(pas, ps[..j])[pas[j].name := ps[j]];
  }

  /** Command words then positional values reach the filled state. */
  lemma ParseUpTo(spec: map<string, Frag>, words: seq<string>, ps: seq<string>, rest: seq<string>)
    requires Walk(Start(spec), words).Some?
    requires var m := Walk(Start(spec), words).value;
      m.frag.code != 0 && DistinctNames(m.frag.posArgs) && |ps| <= |m.frag.posArgs| && PlainValues(ps)
    ensures |words| > 0
    ensures var m := Walk(Start(spec), words).value;
      ParseTokens(ParseAt(Start(spec)), words + ps + rest) == ParseTokens(Filled(m, ps, |ps|), rest)
    ensures var m := Walk(Start(spec), words).value;
      |ps| == |m.frag.posArgs| ==> AwaitingName(Filled(m, ps, |ps|))
  {
    var m := Walk(Start(spec), words).value;
    PosMapFacts(m.frag.posArgs, ps[..|ps|]);
    assert words + ps + rest == words + (ps + rest);
    ParseWalk(Start(spec), words, ps + rest);
    assert ps[0..] == ps;
    assert ParseAt(m) == Filled(m, ps, 0);
    ParseFill(m, ps, 0, rest);
  }

  /** Completeness: the words of a command followed by a value for each positional parse to that command. */
  lemma ParseCompleteCommand(spec: map<string, Frag>, words: seq<string>, ps: seq<string>)
    requires Walk(Start(spec), words).Some?
    requires var m := Walk(Start(spec), words).value;
      m.frag.code != 0 && DistinctNames(m.frag.posArgs) && |ps| == |m.frag.posArgs| && PlainValues(ps)
    ensures var m := Walk(Start(spec), words).value;
      ParseTokenList(spec, words + ps) == Success(Command(m.frag.code, PosMap(m.frag.posArgs, ps), m.handler))
  {
    ParseUpTo(spec, words, ps, []);
    assert words + ps + [] == words + ps;
    PosMapFacts(Walk(Start(spec), words).value.frag.posArgs, ps[..|ps|]);
    assert ps[..|ps|] == ps;
  }

  /**
   * Input ending before every positional is given fails, naming the next
   * one, even when that one is optional.
   */
  lemma ParseMissingPositional(spec: map<string, Frag>, words: seq<string>, ps: seq<string>)
    requires Walk(Start(spec), words).Some?
    requires var m := Walk(Start(spec), words).value;
      m.frag.code != 0 && DistinctNames(m.frag.posArgs) && |ps| < |m.frag.posArgs| && PlainValues(ps)
    ensures var m := Walk(Start(spec), words).value;
      ParseTokenList(spec, words + ps) == Failure(MissingPositional(m.frag.posArgs[|ps|].name))
  {
    ParseUpTo(spec, words, ps, []);
    assert words + ps + [] == words + ps;
    PosMapFacts(Walk(Start(spec), words).value.frag.posArgs, ps[..|ps|]);
  }

  /**
   * Positionals sharing a name: filled slots are counted by the stored names,
   * so the second value overwrites the first, the count stays at one, and the
   * command is still missing its second positional however many values follow.
   */
  lemma ParseSharedPositionalName(spec: map<string, Frag>, words: seq<string>, x: string, y: string)
    requires Walk(Start(spec), words).Some?
    requires var m := Walk(Start(spec), words).value;
      m.frag.code != 0 && |m.frag.posArgs| == 2 && m.frag.posArgs[0].name == m.frag.posArgs[1].name
    requires !IsNamedToken(x) && !IsNamedToken(y)
    ensures var m := Walk(Start(spec), words).value;
      ParseTokenList(spec, words + [x, y]) == Failure(MissingPositional(m.frag.posArgs[1].name))
  {
    var m := Walk(Start(spec), words).value;
    ParseWalk(Start(spec), words, [x, y]);
    var a := m.frag.posArgs[0].name;
    var st := ParseAt(m);
    var one := st.(args := map[a := x]);
    var two := st.(args := map[a := y]);
    assert ParseStep(st, x) == Success(one);
    assert map[a := x][a := y] == map[a := y];
    assert |one.args| == 1 && |two.args| == 1;
    assert ParseStep(one, y) == Success(two);
    assert ParseTokens(st, [x, y]) == ParseTokens(one, [y]) by {
      assert [x, y][1..] == [y];
    }
    assert ParseTokens(one, [y]) == ParseTokens(two, []) by {
      assert [y][1..] == [];
    }
    assert Finish(two) == Failure(MissingPositional(m.frag.posArgs[1].name));
  }

  /** A `-` token while a required positional is open is rejected. */
  lemma ParseNamedBeforeRequired(spec: map<string, Frag>, words: seq<string>, ps: seq<string>, t: string, rest: seq<string>)
    requires Walk(Start(spec), words).Some?
    requires var m := Walk(Start(spec), words).value;
      m.frag.code != 0 && DistinctNames(m.frag.posArgs) && |ps| < |m.frag.posArgs| && PlainValues(ps)
      && !m.frag.posArgs[|ps|].opt
    requires IsNamedToken(t)
    ensures var m := Walk(Start(spec), words).value;
      ParseTokenList(spec, words + ps + ([t] + rest)) == Failure(UnexpectedNamedArg(t, m.frag.posArgs[|ps|].name))
  {
    ParseUpTo(spec, words, ps, [t] + rest);
    PosMapFacts(Walk(Start(spec), words).value.frag.posArgs, ps[..|ps|]);
  }

  /** A plain token once every positional is filled is rejected: a named argument was expected. */
  lemma ParseExtraPositional(spec: map<string, Frag>, words: seq<string>, ps: seq<string>, t: string, rest: seq<string>)
    requires Walk(Start(spec), words).Some?
    requires var m := Walk(Start(spec), words).value;
      m.frag.code != 0 && DistinctNames(m.frag.posArgs) && |ps| == |m.frag.posArgs| && PlainValues(ps)
    requires !IsNamedToken(t)
    ensures ParseTokenList(spec, words + ps + ([t] + rest)) == Failure(ExpectedNamedArg(t))
  {
    ParseUpTo(spec, words, ps, [t] + rest);
    PosMapFacts(Walk(Start(spec), words).value.frag.posArgs, ps[..|ps|]);
  }

  /** A named argument declared nowhere on the path is rejected. */
  lemma ParseUnknownArgument(spec: map<string, Frag>, words: seq<string>, ps: seq<string>, t: string, rest: seq<string>)
    requires Walk(Start(spec), words).Some?
    requires var m := Walk(Start(spec), words).value;
      m.frag.code != 0 && DistinctNames(m.frag.posArgs) && |ps| == |m.frag.posArgs| && PlainValues(ps)
      && IsNamedToken(t) && TrimLeftDash(t) !in m.named
    ensures ParseTokenList(spec, words + ps + ([t] + rest)) == Failure(UnknownArgument(TrimLeftDash(t)))
  {
    ParseUpTo(spec, words, ps, [t] + rest);
    PosMapFacts(Walk(Start(spec), words).value.frag.posArgs, ps[..|ps|]);
  }

  /**
   * A named argument that is not a flag of the command itself needs a value;
   * at the end of input it is incomplete. This includes a flag declared only
   * on an enclosing fragment.
   */
  lemma ParseMissingValue(spec: map<string, Frag>, words: seq<string>, ps: seq<string>, t: string)
    requires Walk(Start(spec), words).Some?
    requires var m := Walk(Start(spec), words).value;
      m.frag.code != 0 && DistinctNames(m.frag.posArgs) && |ps| == |m.frag.posArgs| && PlainValues(ps)
      && IsNamedToken(t) && TrimLeftDash(t) in m.named && TrimLeftDash(t) != ""
      && !IsLeafFlag(m.frag, TrimLeftDash(t))
    ensures ParseTokenList(spec, words + ps + [t]) == Failure(IncompleteArgument(TrimLeftDash(t)))
  {
    ParseUpTo(spec, words, ps, [t]);
    PosMapFacts(Walk(Start(spec), words).value.frag.posArgs, ps[..|ps|]);
  }

  /** A flag of the command itself is stored with the empty value. */
  lemma ParseFlag(spec: map<string, Frag>, words: seq<string>, ps: seq<string>, t: string)
    requires Walk(Start(spec), words).Some?
    requires var m := Walk(Start(spec), words).value;
      m.frag.code != 0 && DistinctNames(m.frag.posArgs) && |ps| == |m.frag.posArgs| && PlainValues(ps)
      && IsNamedToken(t) && TrimLeftDash(t) in m.named && IsLeafFlag(m.frag, TrimLeftDash(t))
    ensures var m := Walk(Start(spec), words).value;
      ParseTokenList(spec, words + ps + [t])
        == Success(Command(m.frag.code, PosMap(m.frag.posArgs, ps)[TrimLeftDash(t) := ""], m.handler))
  {
    ParseUpTo(spec, words, ps, [t]);
    PosMapFacts(Walk(Start(spec), words).value.frag.posArgs, ps[..|ps|]);
    assert ps[..|ps|] == ps;
  }

  /** A named argument followed by a value stores that value under its name. */
  lemma ParseNamedValue(spec: map<string, Frag>, words: seq<string>, ps: seq<string>, t: string, v: string)
    requires Walk(Start(spec), words).Some?
    requires var m := Walk(Start(spec), words).value;
      m.frag.code != 0 && DistinctNames(m.frag.posArgs) && |ps| == |m.frag.posArgs| && PlainValues(ps)
      && IsNamedToken(t) && TrimLeftDash(t) in m.named && TrimLeftDash(t) != ""
      && !IsLeafFlag(m.frag, TrimLeftDash(t))
    ensures var m := Walk(Start(spec), words).value;
      ParseTokenList(spec, words + ps + [t, v])
        == Success(Command(m.frag.code, PosMap(m.frag.posArgs, ps)[TrimLeftDash(t) := v], m.handler))
  {
    var m := Walk(Start(spec), words).value;
    ParseUpTo(spec, words, ps, [t, v]);
    PosMapFacts(Walk(Start(spec), words).value.frag.posArgs, ps[..|ps|]);
    var st := Filled(m, ps, |ps|);
    var name := TrimLeftDash(t);
    var waiting := st.(posArgsDone := true, namedArg := name);
    assert ParseStep(st, t) == Success(waiting);
    assert ParseTokens(st, [t, v]) == ParseTokens(waiting, [v]) by {
      assert [t, v][1..] == [v];
    }
    assert ParseStep(waiting, v) == Success(waiting.(args := st.args[name := v], namedArg := ""));
    assert ps[..|ps|] == ps;
  }

  /**
   * The named-argument phase: a complete command reached, its positionals
   * filled or given up, and no name awaiting a value.
   */
  predicate AwaitingName(st: ParseState)
  {
    st.ptr.code != 0 && st.namedArg == "" && (st.posArgsDone || |st.args| >= |st.ptr.posArgs|)
  }

  /** A declared name other than the empty one, and no flag of the command itself: it awaits a value. */
  predicate TakesValue(st: ParseState, name: string)
  {
    name in st.possible && name != "" && !IsLeafFlag(st.ptr, name)
  }

  /**
   * From any state of the named-argument phase, whatever tokens led there:
   * the input may end there; a plain token is rejected, as is a name declared
   * nowhere on the path; a flag of the command itself is stored empty, and
   * any other declared name stores the token after it; either way the walk
   * is back in the phase.
   */
  lemma ParseNamedPhase(st: ParseState, t: string, rest: seq<string>)
    requires AwaitingName(st)
    ensures Finish(st) == Success(Command(st.ptr.code, st.args, st.handler))
    ensures !IsNamedToken(t) ==> ParseTokens(st, [t] + rest) == Failure(ExpectedNamedArg(t))
    ensures IsNamedToken(t) && TrimLeftDash(t) !in st.possible ==>
      ParseTokens(st, [t] + rest) == Failure(UnknownArgument(TrimLeftDash(t)))
    ensures IsNamedToken(t) && TrimLeftDash(t) in st.possible && IsLeafFlag(st.ptr, TrimLeftDash(t)) ==>
      var next := st.(posArgsDone := true, args := st.args[TrimLeftDash(t) := ""]);
      AwaitingName(next) && ParseTokens(st, [t] + rest) == ParseTokens(next, rest)
    ensures IsNamedToken(t) && TakesValue(st, TrimLeftDash(t)) && |rest| > 0 ==>
      var next := st.(posArgsDone := true, args := st.args[TrimLeftDash(t) := rest[0]]);
      AwaitingName(next) && ParseTokens(st, [t] + rest) == ParseTokens(next, rest[1..])
    ensures IsNamedToken(t) && TakesValue(st, TrimLeftDash(t)) ==>
      ParseTokens(st, [t]).Success? && Finish(ParseTokens(st, [t]).value) == Failure(IncompleteArgument(TrimLeftDash(t)))
  {
    assert ([t] + rest)[0] == t && ([t] + rest)[1..] == rest;
    assert [t][1..] == [];
    if |rest| > 0 {
      assert rest == [rest[0]] + rest[1..];
    }
  }

  /** Words that stop short of a complete command leave it incomplete. */
  lemma ParseIncompleteCommand(spec: map<string, Frag>, words: seq<string>)
    requires |words| > 0 && Walk(Start(spec), words).Some?
    requires var m := Walk(Start(spec), words).value; m.frag.code == 0 && |m.frag.posArgs| == 0
    ensures ParseTokenList(spec, words) == Failure(IncompleteCommand)
  {
    ParseWalk(Start(spec), words, []);
    assert words + [] == words;
  }

  /** A word that is no child of the fragment reached so far is unrecognised. */
  lemma ParseUnrecognised(spec: map<string, Frag>, words: seq<string>, t: string, rest: seq<string>)
    requires Walk(Start(spec), words).Some?
    requires var m := Walk(Start(spec), words).value; m.frag.code == 0 && ToLower(t) !in m.frag.sub
    ensures ParseTokenList(spec, words + ([t] + rest)) == Failure(UnrecognisedToken(t))
  {
    ParseWalk(Start(spec), words, [t] + rest);
  }
}

=== FILE: parser_examples.dfy ===
/**
 * The parser's own test table, stated as lemmas: the tokenizer cases on their
 * literal lines, and the parse and completion cases for every grammar shaped
 * like the test grammar (which `TestSpec` is), on the tokens of each line.
 */
module ParserExamples {
  import opened Wrappers
  import opened Strings
  import opened Tokenizer
  import opened Grammar
  import opened Parser
  import opened Suggestions
  import opened Completion

  // ---------------------------------------------------------------------------
  // Tokenizing

  lemma TokenizeEmpty()
    ensures Tokenize("") == Tokens([], false)
  {
    assert Run(Initial, "") == Initial;
  }

  lemma TokenizeExit()
    ensures Tokenize("exit") == Tokens(["exit"], false)
  {
    TokenizeJoin(["exit"]);
  }

  lemma TokenizeCmdArg()
    ensures Tokenize("cmd -arg") == Tokens(["cmd", "-arg"], false)
  {
    var words := ["cmd", "-arg"];
    assert PlainWord(words[0]) && PlainWord(words[1]);
    assert Join(words, " ") == "cmd -arg" by {
      assert words[..1] == ["cmd"];
    }
    TokenizeJoin(words);
  }

  lemma TokenizeExtraSpaces()
    ensures Tokenize("cmd  -arg") == Tokens(["cmd", "-arg"], false)
    ensures Tokenize(" cmd -arg") == Tokens(["cmd", "-arg"], false)
  {
    TokenizeCmdArg();
    RunPlain(Initial, "cmd");
    DoubledSpaceIgnored("cmd", "-arg");
    assert "cmd" + "  " + "-arg" == "cmd  -arg";
    assert "cmd" + " " + "-arg" == "cmd -arg";
    LeadingSpaceIgnored("cmd -arg");
    assert " " + "cmd -arg" == " cmd -arg";
  }

  lemma TokenizeTrailingSpace()
    ensures Tokenize("cmd -arg ") == Tokens(["cmd", "-arg"], true)
  {
    TokenizeCmdArg();
    var words := ["cmd", "-arg"];
    assert PlainWord(words[0]) && PlainWord(words[1]);
    assert Join(words, " ") == "cmd -arg" by {
      assert words[..1] == ["cmd"];
    }
    RunJoined(words);
    TrailingSpace("cmd -arg");
    assert "cmd -arg" + " " == "cmd -arg ";
  }

  /** The scan of `cmd ` has emitted `cmd` and is outside a quote. */
  lemma RunCmdSpace()
    ensures Run(Initial, "cmd ") == Scan(["cmd"], "", false)
  {
    assert "cmd" + " " == "cmd ";
    RunAppend(Initial, "cmd", " ");
    RunPlain(Initial, "cmd");
    assert Initial.token + "cmd" == "cmd";
    assert Run(Scan([], "cmd", false), " ") == Scan(["cmd"], "", false) by {
      assert " "[..0] == "";
    }
  }

  lemma TokenizeQuoted()
    ensures Tokenize("cmd \"a space\"") == Tokens(["cmd", "a space"], false)
  {
    RunCmdSpace();
    QuotedToken("cmd ", "a space");
    assert "cmd " + "\"" + "a space" + "\"" == "cmd \"a space\"";
    assert Flush(Scan(["cmd"], "", false)) == ["cmd"];
  }

  lemma TokenizeUnterminated()
    ensures Tokenize("cmd \"ff ") == Tokens(["cmd", "ff "], false)
  {
    RunCmdSpace();
    UnterminatedQuote("cmd ", "ff ");
    assert "cmd " + "\"" + "ff " == "cmd \"ff ";
    assert Flush(Scan(["cmd"], "", false)) == ["cmd"];
  }

  // ---------------------------------------------------------------------------
  // The test grammar

  /** Both test commands get code 1: the test declares its second code without a value, so it repeats the first. */
  const TestCloud: Frag := Frag("New public cloud platform",
    [PosArg("name", "Name of platform", false, None)], map[],
    map["region" := NamedArg("Sets the public cloud region", None, false),
        "tags" := NamedArg("Sets tags on the new platform", None, false),
        "flag" := NamedArg("Test Flag", None, true)],
    1, None)
  const TestPlatform: Frag := Frag("Create a new platform", [], map["cloud" := TestCloud], map[], 0, None)
  const TestCreate: Frag := Frag("Creates platforms, etc", [], map["platform" := TestPlatform],
    map["shortName" := NamedArg("Overrides the shortname", None, false),
        "description" := NamedArg("Sets the description", None, false)],
    0, None)
  const TestExit: Frag := Frag("Exit", [], map[], map[], 1, None)
  const TestSpec: map<string, Frag> := map["create" := TestCreate, "exit" := TestExit]

  const CloudWords: seq<string> := ["create", "platform", "cloud"]

  /**
   * The test grammar's shape: an `exit` command; `create platform cloud`, a
   * command with one required positional `name`, below two fragments that
   * are not commands.
   */
  predicate TestShaped(spec: map<string, Frag>)
  {
    && "exit" in spec && spec["exit"].code != 0 && spec["exit"].posArgs == []
    && "create" in spec
    && var create := spec["create"];
    && create.code == 0 && "platform" in create.sub
    && var platform := create.sub["platform"];
    && platform.code == 0 && platform.posArgs == [] && "cloud" in platform.sub
    && var cloud := platform.sub["cloud"];
    && cloud.code != 0 && |cloud.posArgs| == 1 && cloud.posArgs[0].name == "name" && !cloud.posArgs[0].opt
  }

  function Create(spec: map<string, Frag>): Frag
    requires TestShaped(spec)
  {
    spec["create"]
  }

  function Platform(spec: map<string, Frag>): Frag
    requires TestShaped(spec)
  {
    spec["create"].sub["platform"]
  }

  function Cloud(spec: map<string, Frag>): Frag
    requires TestShaped(spec)
  {
    spec["create"].sub["platform"].sub["cloud"]
  }

  /** The names accepted at `create platform cloud`, deeper declarations winning. */
  function CloudNamed(spec: map<string, Frag>): map<string, NamedArg>
    requires TestShaped(spec)
  {
    Create(spec).args + Platform(spec).args + Cloud(spec).args
  }

  /** The test grammar has the test shape, and the names its cases use are declared where the cases expect. */
  lemma TestSpecShaped()
    ensures TestShaped(TestSpec)
    ensures "flag" in Cloud(TestSpec).args && Cloud(TestSpec).args["flag"].flag
    ensures "shortName" in Create(TestSpec).args && !IsLeafFlag(Cloud(TestSpec), "shortName")
    ensures "unknown" !in CloudNamed(TestSpec)
    ensures "xxx" !in Platform(TestSpec).sub
  {
  }

  lemma WalkTwo(r: Reached, a: string, fa: Frag, b: string, fb: Frag)
    requires IsLower(a) && IsLower(b)
    requires r.frag.code == 0 && a in r.frag.sub && r.frag.sub[a] == fa
    requires fa.code == 0 && b in fa.sub && fa.sub[b] == fb
    ensures Walk(r, [a, b]) == Some(Enter(Enter(r, fa), fb))
  {
    WalkWord(r, a);
    WalkWord(Enter(r, fa), b);
    WalkAppend(r, [a], [b]);
    assert [a] + [b] == [a, b];
  }

  lemma WalkThree(r: Reached, a: string, fa: Frag, b: string, fb: Frag, c: string, fc: Frag)
    requires IsLower(a) && IsLower(b) && IsLower(c)
    requires r.frag.code == 0 && a in r.frag.sub && r.frag.sub[a] == fa
    requires fa.code == 0 && b in fa.sub && fa.sub[b] == fb
    requires fb.code == 0 && c in fb.sub && fb.sub[c] == fc
    ensures Walk(r, [a, b, c]) == Some(Enter(Enter(Enter(r, fa), fb), fc))
  {
    WalkTwo(r, a, fa, b, fb);
    WalkWord(Enter(Enter(r, fa), fb), c);
    WalkAppend(r, [a, b], [c]);
    assert [a, b] + [c] == [a, b, c];
  }

  lemma AtPlatform(spec: map<string, Frag>)
    requires TestShaped(spec)
    ensures Walk(Start(spec), ["create", "platform"]).Some?
    ensures Walk(Start(spec), ["create", "platform"]).value.frag == Platform(spec)
  {
    assert IsLower("create") && IsLower("platform");
    WalkTwo(Start(spec), "create", Create(spec), "platform", Platform(spec));
  }

  lemma AtCloud(spec: map<string, Frag>)
    requires TestShaped(spec)
    ensures Walk(Start(spec), CloudWords).Some?
    ensures var m := Walk(Start(spec), CloudWords).value;
      m.frag == Cloud(spec) && DistinctNames(m.frag.posArgs) && m.named == CloudNamed(spec)
  {
    assert IsLower("create") && IsLower("platform") && IsLower("cloud");
    WalkThree(Start(spec), "create", Create(spec), "platform", Platform(spec), "cloud", Cloud(spec));
    UnionEmpty(Create(spec).args);
  }

  /**
   * Regrouping the tokens of a line (`words + [..]` written as one list);
   * these only reassociate concatenations, stated once, generically, so no
   * literal is unfolded.
   */
  lemma Append1<T>(a: seq<T>, x: T, y: T)
    ensures a + [x] + [y] == a + [x, y]
  {
  }

  lemma Append2<T>(a: seq<T>, x: T, y: T, z: T)
    ensures a + [x] + ([y] + [z]) == a + [x, y, z]
    ensures a + [x] + [y, z] == a + [x, y, z]
  {
  }

  lemma AppendEmpty<T>(a: seq<T>, x: T, y: T)
    ensures a + [] + ([x] + [y]) == a + [x, y]
    ensures a + [x] + ([y] + []) == a + [x, y]
    ensures a + [] == a
    ensures a + [] + ([x] + []) == a + [x]
  {
  }

  lemma Triple<T>(x: T, y: T, z: T)
    ensures [x] + ([y] + [z]) == [x, y, z]
    ensures [x, y] + ([z] + []) == [x, y, z]
    ensures [x] + [] == [x]
  {
  }

  lemma UnionEmpty<K, V>(m: map<K, V>)
    ensures map[] + m == m
  {
  }

  /** A token not starting with `-` is a plain value. */
  lemma Plain(v: string)
    requires |v| > 0 && v[0] != '-'
    ensures !IsNamedToken(v) && PlainValues([v]) && TrimLeftDash(v) == v
  {
    assert v[..1] == [v[0]];
  }

  /** `-` and a name not starting with `-` names that argument. */
  lemma Dashed(n: string)
    requires |n| > 0 && n[0] != '-'
    ensures IsNamedToken("-" + n) && TrimLeftDash("-" + n) == n
  {
    assert ("-" + n)[..1] == "-";
    assert n[..1] == [n[0]];
    TrimLeftDashOfDashPrefixed(n);
  }

  /** One value, stored under the cloud command's one positional. */
  lemma OneValue(spec: map<string, Frag>, v: string)
    requires TestShaped(spec)
    ensures PosMap(Cloud(spec).posArgs, [v]) == map["name" := v]
  {
    assert [v][..0] == [];
  }

  // ---------------------------------------------------------------------------
  // Parsing: one lemma per row of the test table

  lemma ParseExit(spec: map<string, Frag>)
    requires TestShaped(spec)
    ensures var r := ParseTokenList(spec, ["exit"]);
      r.Success? && r.value.code == spec["exit"].code && r.value.args == map[]
  {
    assert IsLower("exit");
    WalkWord(Start(spec), "exit");
    ParseCompleteCommand(spec, ["exit"], []);
    Triple("exit", "", "");
  }

  lemma ParseName(spec: map<string, Frag>, v: string)
    requires TestShaped(spec) && |v| > 0 && v[0] != '-'
    ensures var r := ParseTokenList(spec, CloudWords + [v]);
      r.Success? && r.value.code == Cloud(spec).code && r.value.args == map["name" := v]
  {
    AtCloud(spec);
    Plain(v);
    ParseCompleteCommand(spec, CloudWords, [v]);
    OneValue(spec, v);
  }

  lemma ParseNameFlag(spec: map<string, Frag>, v: string, f: string)
    requires TestShaped(spec) && |v| > 0 && v[0] != '-'
    requires |f| > 0 && f[0] != '-' && f in Cloud(spec).args && Cloud(spec).args[f].flag
    ensures var r := ParseTokenList(spec, CloudWords + [v, "-" + f]);
      r.Success? && r.value.code == Cloud(spec).code && r.value.args == map["name" := v, f := ""]
  {
    AtCloud(spec);
    Plain(v);
    Dashed(f);
    ParseFlag(spec, CloudWords, [v], "-" + f);
    OneValue(spec, v);
    Append1(CloudWords, v, "-" + f);
  }

  lemma ParsePlatformOnly(spec: map<string, Frag>)
    requires TestShaped(spec)
    ensures ParseTokenList(spec, ["create", "platform"]) == Failure(IncompleteCommand)
  {
    AtPlatform(spec);
    ParseIncompleteCommand(spec, ["create", "platform"]);
  }

  lemma ParseNoName(spec: map<string, Frag>)
    requires TestShaped(spec)
    ensures ParseTokenList(spec, CloudWords) == Failure(MissingPositional("name"))
  {
    AtCloud(spec);
    assert PlainValues([]);
    ParseMissingPositional(spec, CloudWords, []);
    AppendEmpty(CloudWords, "", "");
  }

  lemma ParseNamedBeforeName(spec: map<string, Frag>, n: string, x: string)
    requires TestShaped(spec) && |n| > 0 && n[0] != '-'
    ensures ParseTokenList(spec, CloudWords + ["-" + n, x]) == Failure(UnexpectedNamedArg("-" + n, "name"))
  {
    AtCloud(spec);
    Dashed(n);
    assert PlainValues([]);
    ParseNamedBeforeRequired(spec, CloudWords, [], "-" + n, [x]);
    AppendEmpty(CloudWords, "-" + n, x);
  }

  lemma ParseNoValue(spec: map<string, Frag>, v: string, n: string)
    requires TestShaped(spec) && |v| > 0 && v[0] != '-'
    requires |n| > 0 && n[0] != '-' && n in CloudNamed(spec) && !IsLeafFlag(Cloud(spec), n)
    ensures ParseTokenList(spec, CloudWords + [v, "-" + n]) == Failure(IncompleteArgument(n))
  {
    AtCloud(spec);
    Plain(v);
    Dashed(n);
    ParseMissingValue(spec, CloudWords, [v], "-" + n);
    Append1(CloudWords, v, "-" + n);
  }

  lemma ParseUnknown(spec: map<string, Frag>, v: string, n: string, x: string)
    requires TestShaped(spec) && |v| > 0 && v[0] != '-'
    requires |n| > 0 && n[0] != '-' && n !in CloudNamed(spec)
    ensures ParseTokenList(spec, CloudWords + [v, "-" + n, x]) == Failure(UnknownArgument(n))
  {
    AtCloud(spec);
    Plain(v);
    Dashed(n);
    ParseUnknownArgument(spec, CloudWords, [v], "-" + n, [x]);
    Append2(CloudWords, v, "-" + n, x);
  }

  lemma ParseExtra(spec: map<string, Frag>, v: string, w: string)
    requires TestShaped(spec) && |v| > 0 && v[0] != '-' && |w| > 0 && w[0] != '-'
    ensures ParseTokenList(spec, CloudWords + [v, w]) == Failure(ExpectedNamedArg(w))
  {
    AtCloud(spec);
    Plain(v);
    Plain(w);
    ParseExtraPositional(spec, CloudWords, [v], w, []);
    AppendEmpty(CloudWords, v, w);
  }

  lemma ParseBadWord(spec: map<string, Frag>, w: string)
    requires TestShaped(spec) && ToLower(w) !in Platform(spec).sub
    ensures ParseTokenList(spec, ["create", "platform", w]) == Failure(UnrecognisedToken(w))
  {
    AtPlatform(spec);
    ParseUnrecognised(spec, ["create", "platform"], w, []);
    Triple("create", "platform", w);
  }

  lemma ParseEnclosingArgument(spec: map<string, Frag>, v: string, n: string, x: string)
    requires TestShaped(spec) && |v| > 0 && v[0] != '-'
    requires |n| > 0 && n[0] != '-' && n in CloudNamed(spec) && !IsLeafFlag(Cloud(spec), n)
    ensures var r := ParseTokenList(spec, CloudWords + [v, "-" + n, x]);
      r.Success? && r.value.code == Cloud(spec).code && r.value.args == map["name" := v, n := x]
  {
    AtCloud(spec);
    Plain(v);
    Dashed(n);
    ParseNamedValue(spec, CloudWords, [v], "-" + n, x);
    OneValue(spec, v);
    Append2(CloudWords, v, "-" + n, x);
  }

  /**
   * A named argument awaiting its value takes the next token even when it
   * starts with `-`: the dash token is stored as the value, and the parse
   * does not report the argument as incomplete.
   */
  lemma DashTokenAsValue(spec: map<string, Frag>, v: string, n: string, f: string)
    requires TestShaped(spec) && |v| > 0 && v[0] != '-'
    requires |n| > 0 && n[0] != '-' && n in CloudNamed(spec) && !IsLeafFlag(Cloud(spec), n)
    ensures var r := ParseTokenList(spec, CloudWords + [v, "-" + n, "-" + f]);
      r.Success? && r.value.args == map["name" := v, n := "-" + f]
  {
    ParseEnclosingArgument(spec, v, n, "-" + f);
  }

  // ---------------------------------------------------------------------------
  // Completion: the rows of the test table with a notable answer

  lemma SuggestNothingTyped(call: Provider, spec: map<string, Frag>)
    requires TestShaped(spec)
    ensures |Suggest(call, spec, "")| == |spec| > 0
  {
    SuggestBlank(call, spec);
  }

  lemma SuggestUnknownWordThenMore(call: Provider, spec: map<string, Frag>, w: string, x: string, ws: bool)
    requires TestShaped(spec) && ToLower(w) !in Create(spec).sub
    ensures SuggestFromTokens(call, spec, ["create", w, x], ws) == []
  {
    assert IsLower("create");
    WalkWord(Start(spec), "create");
    SuggestDeadEnd(call, spec, ["create"], w, [x], ws);
    Triple("create", w, x);
  }

  lemma SuggestNameHint(call: Provider, spec: map<string, Frag>)
    requires TestShaped(spec)
    ensures var arg := Cloud(spec).posArgs[0];
      SuggestFromTokens(call, spec, CloudWords, true) == [Placeholder("", "name", arg.desc)]
  {
    AtCloud(spec);
    assert PlainValues([]);
    SuggestNextPositional(call, spec, CloudWords, []);
    AppendEmpty(CloudWords, "", "");
  }

  lemma SuggestNameInProgress(call: Provider, spec: map<string, Frag>, v: string)
    requires TestShaped(spec) && Cloud(spec).posArgs[0].suggest == None && |v| > 0 && v[0] != '-'
    ensures var arg := Cloud(spec).posArgs[0];
      SuggestFromTokens(call, spec, CloudWords + [v], false)
        == if Contains(v, " ") then [] else [Placeholder(v, "name", arg.desc)]
  {
    AtCloud(spec);
    assert PlainValues([]);
    Plain(v);
    SuggestPositionalInProgress(call, spec, CloudWords, [], v);
    AppendEmpty(CloudWords, "", "");
  }

  lemma SuggestAfterName(call: Provider, spec: map<string, Frag>, v: string)
    requires TestShaped(spec) && |v| > 0 && v[0] != '-'
    ensures SuggestFromTokens(call, spec, CloudWords + [v], true) == ArgSuggestions(CloudNamed(spec))
  {
    AtCloud(spec);
    Plain(v);
    SuggestNamedAfterPositionals(call, spec, CloudWords, [v]);
  }

  lemma SuggestExtraAfterName(call: Provider, spec: map<string, Frag>, v: string, w: string, ws: bool)
    requires TestShaped(spec) && |v| > 0 && v[0] != '-' && |w| > 0 && w[0] != '-' && w !in CloudNamed(spec)
    ensures SuggestFromTokens(call, spec, CloudWords + [v, w], ws) == []
  {
    AtCloud(spec);
    Plain(v);
    Plain(w);
    SuggestExtraWord(call, spec, CloudWords, [v], w, ws);
    Append1(CloudWords, v, w);
  }

  lemma SuggestAfterFlag(call: Provider, spec: map<string, Frag>, v: string, f: string)
    requires TestShaped(spec) && |v| > 0 && v[0] != '-'
    requires |f| > 0 && f[0] != '-' && f in Cloud(spec).args && Cloud(spec).args[f].flag
    ensures SuggestFromTokens(call, spec, CloudWords + [v, "-" + f], true) == ArgSuggestions(CloudNamed(spec) - {f})
  {
    AtCloud(spec);
    Plain(v);
    Dashed(f);
    SuggestFlagConsumed(call, spec, CloudWords, [v], "-" + f);
    Append1(CloudWords, v, "-" + f);
  }

  lemma SuggestNamedValueInProgress(call: Provider, spec: map<string, Frag>, v: string, n: string, x: string)
    requires TestShaped(spec) && |v| > 0 && v[0] != '-'
    requires |n| > 0 && n[0] != '-' && n in CloudNamed(spec)
    requires !CloudNamed(spec)[n].flag && CloudNamed(spec)[n].suggest == None
    ensures SuggestFromTokens(call, spec, CloudWords + [v, "-" + n, x], false)
      == if Contains(x, " ") then [] else [Suggestion(x, CloudNamed(spec)[n].desc)]
  {
    AtCloud(spec);
    Plain(v);
    Dashed(n);
    SuggestValueInProgress(call, spec, CloudWords, [v], "-" + n, x);
    Append2(CloudWords, v, "-" + n, x);
  }

  // ---------------------------------------------------------------------------
  // Where the two walks part

  /**
   * A flag declared only on an enclosing fragment: the parser, reading
   * flag-ness from the command itself, waits for a value and fails at the
   * end of input, while completion consumes it as a flag.
   */
  lemma FlagOnEnclosingFragment(call: Provider, spec: map<string, Frag>, words: seq<string>, ps: seq<string>, n: string)
    requires Walk(Start(spec), words).Some?
    requires var m := Walk(Start(spec), words).value;
      m.frag.code != 0 && DistinctNames(m.frag.posArgs) && |ps| == |m.frag.posArgs| && PlainValues(ps)
      && n in m.named && m.named[n].flag && !IsLeafFlag(m.frag, n)
    requires |n| > 0 && n[0] != '-'
    ensures ParseTokenList(spec, words + ps + ["-" + n]) == Failure(IncompleteArgument(n))
    ensures var named := Walk(Start(spec), words).value.named;
      SuggestFromTokens(call, spec, words + ps + ["-" + n], true) == ArgSuggestions(named - {n})
  {
    Dashed(n);
    ParseMissingValue(spec, words, ps, "-" + n);
    SuggestFlagConsumed(call, spec, words, ps, "-" + n);
  }

  /**
   * A flag of the command written without its `-`: the parser requires the
   * dash and rejects the word, while completion strips a dash without
   * requiring one and consumes the word as that flag.
   */
  lemma DashOptionalInCompletion(call: Provider, spec: map<string, Frag>, v: string, f: string)
    requires TestShaped(spec) && |v| > 0 && v[0] != '-'
    requires |f| > 0 && f[0] != '-' && f in Cloud(spec).args && Cloud(spec).args[f].flag
    ensures ParseTokenList(spec, CloudWords + [v, f]) == Failure(ExpectedNamedArg(f))
    ensures SuggestFromTokens(call, spec, CloudWords + [v, f], true) == ArgSuggestions(CloudNamed(spec) - {f})
  {
    ParseExtra(spec, v, f);
    AtCloud(spec);
    Plain(v);
    Plain(f);
    SuggestFlagConsumed(call, spec, CloudWords, [v], f);
    Append1(CloudWords, v, f);
  }

  /** The same on the test grammar's own flag, `flag`. */
  lemma DashOptionalOnTestFlag(call: Provider, v: string)
    requires |v| > 0 && v[0] != '-'
    ensures ParseTokenList(TestSpec, CloudWords + [v, "flag"]) == Failure(ExpectedNamedArg("flag"))
    ensures SuggestFromTokens(call, TestSpec, CloudWords + [v, "flag"], true)
         == ArgSuggestions(CloudNamed(TestSpec) - {"flag"})
  {
    TestSpecShaped();
    DashOptionalInCompletion(call, TestSpec, v, "flag");
  }

  /** A `-` token typed where the required positional `name` is open is rejected by the parser. */
  lemma ParseDashForName(spec: map<string, Frag>, n: string)
    requires TestShaped(spec) && |n| > 0 && n[0] != '-'
    ensures ParseTokenList(spec, CloudWords + ["-" + n]) == Failure(UnexpectedNamedArg("-" + n, "name"))
  {
    AtCloud(spec);
    Dashed(n);
    assert PlainValues([]);
    ParseNamedBeforeRequired(spec, CloudWords, [], "-" + n, []);
    AppendEmpty(CloudWords, "-" + n, "");
  }

  /** Completion takes the same token as the value of `name` and answers with its placeholder. */
  lemma SuggestDashForName(call: Provider, spec: map<string, Frag>, n: string)
    requires TestShaped(spec) && Cloud(spec).posArgs[0].suggest == None
    requires |n| > 0 && n[0] != '-' && !Contains("-" + n, " ")
    ensures SuggestFromTokens(call, spec, CloudWords + ["-" + n], false)
         == [Placeholder("-" + n, "name", Cloud(spec).posArgs[0].desc)]
  {
    AtCloud(spec);
    Dashed(n);
    assert PlainValues([]);
    SuggestPositionalInProgress(call, spec, CloudWords, [], "-" + n);
    AppendEmpty(CloudWords, "", "");
  }

  /**
   * A `-` token typed where the required positional `name` is open: the
   * parser rejects it, while completion takes it as that positional's value.
   */
  lemma DashForRequiredPositional(call: Provider, spec: map<string, Frag>, n: string)
    requires TestShaped(spec) && Cloud(spec).posArgs[0].suggest == None
    requires |n| > 0 && n[0] != '-' && !Contains("-" + n, " ")
    ensures ParseTokenList(spec, CloudWords + ["-" + n]) == Failure(UnexpectedNamedArg("-" + n, "name"))
    ensures SuggestFromTokens(call, spec, CloudWords + ["-" + n], false)
         == [Placeholder("-" + n, "name", Cloud(spec).posArgs[0].desc)]
  {
    ParseDashForName(spec, n);
    SuggestDashForName(call, spec, n);
  }
}

=== FILE: strings.dfy ===
/**
 * String helpers standing in for Go's `strings` package, restricted to ASCII,
 * and the byte-wise ordering Go uses for `<` on strings.
 */
module Strings {

  /** `unicode.ToLower` on the ASCII range: upper-case letters map to lower case. */
  function LowerChar(c: char): char
  {
    if 'A' <= c <= 'Z' then (c as int + 32) as char else c
  }

  /** `strings.ToLower`, character by character. */
  function ToLower(s: string): (r: string)
    ensures |r| == |s|
    ensures forall i :: 0 <= i < |s| ==> r[i] == LowerChar(s[i])
  {
    if |s| == 0 then [] else [LowerChar(s[0])] + ToLower(s[1..])
  }

  /** No upper-case ASCII letter in `s`. */
  predicate IsLower(s: string)
  {
    forall i :: 0 <= i < |s| ==> !('A' <= s[i] <= 'Z')
  }

  /** Lower-casing changes exactly the strings holding an upper-case letter. */
  lemma ToLowerFixed(s: string)
    ensures ToLower(s) == s <==> IsLower(s)
  {
    if !IsLower(s) {
      var i :| 0 <= i < |s| && 'A' <= s[i] <= 'Z';
      assert ToLower(s)[i] != s[i];
    }
  }

  /** `strings.HasPrefix`. */
  predicate HasPrefix(s: string, prefix: string)
  {
    |prefix| <= |s| && s[..|prefix|] == prefix
  }

  /** `strings.HasSuffix`. */
  predicate HasSuffix(s: string, suffix: string)
  {
    |suffix| <= |s| && s[|s| - |suffix|..] == suffix
  }

  /** `strings.Contains`: `sub` occurs somewhere in `s`. */
  predicate Contains(s: string, sub: string)
  {
    HasPrefix(s, sub) || (|s| > 0 && Contains(s[1..], sub))
  }

  /** A string made only of `-` characters. */
  predicate AllDashes(s: string)
  {
    forall i :: 0 <= i < |s| ==> s[i] == '-'
  }

  /** `strings.TrimLeft(s, "-")`: drops every leading `-`. */
  function TrimLeftDash(s: string): (r: string)
    ensures |r| <= |s| && s == s[..|s| - |r|] + r
    ensures AllDashes(s[..|s| - |r|])
    ensures !HasPrefix(r, "-")
  {
    if |s| > 0 && s[0] == '-' then TrimLeftDash(s[1..]) else s
  }

  lemma TrimLeftDashOfDashPrefixed(name: string)
    requires !HasPrefix(name, "-")
    ensures TrimLeftDash("-" + name) == name
  {
    assert ("-" + name)[1..] == name;
  }

  /** `strings.Repeat(string(c), n)`. */
  function Repeat(c: char, n: nat): (r: string)
    ensures |r| == n
    ensures forall i :: 0 <= i < n ==> r[i] == c
  {
    if n == 0 then [] else [c] + Repeat(c, n - 1)
  }

  /** `strings.Join(parts, sep)`. */
  function Join(parts: seq<string>, sep: string): string
  {
    if |parts| == 0 then ""
    else if |parts| == 1 then parts[0]
    else Join(parts[..|parts| - 1], sep) + sep + parts[|parts| - 1]
  }

  /** Go's `a < b` on strings: lexicographic by character (byte order on ASCII). */
  predicate Less(a: string, b: string)
  {
    if |b| == 0 then false
    else if |a| == 0 then true
    else if a[0] != b[0] then a[0] < b[0]
    else Less(a[1..], b[1..])
  }

  lemma {:induction false} LessIrreflexive(a: string)
    ensures !Less(a, a)
  {
    if |a| > 0 {
      LessIrreflexive(a[1..]);
    }
  }

  lemma {:induction false} LessTransitive(a: string, b: string, c: string)
    requires Less(a, b) && Less(b, c)
    ensures Less(a, c)
  {
    if |a| > 0 && a[0] == b[0] && b[0] == c[0] {
      LessTransitive(a[1..], b[1..], c[1..]);
    }
  }

  lemma {:induction false} LessTrichotomy(a: string, b: string)
    ensures Less(a, b) || a == b || Less(b, a)
  {
    if |a| > 0 && |b| > 0 && a[0] == b[0] {
      LessTrichotomy(a[1..], b[1..]);
      assert a == [a[0]] + a[1..];
      assert b == [b[0]] + b[1..];
    }
  }

  lemma LessTrichotomyAll()
    ensures forall a: string, b: string :: Less(a, b) || a == b || Less(b, a)
  {
    forall a: string, b: string
      ensures Less(a, b) || a == b || Less(b, a)
    {
      LessTrichotomy(a, b);
    }
  }

  /** Prefixing both strings with the same string keeps their order. */
  lemma {:induction false} LessCommonPrefix(p: string, a: string, b: string)
    ensures Less(p + a, p + b) <==> Less(a, b)
  {
    if |p| == 0 {
      assert p + a == a && p + b == b;
    } else {
      assert (p + a)[0] == p[0] == (p + b)[0];
      assert (p + a)[1..] == p[1..] + a;
      assert (p + b)[1..] == p[1..] + b;
      LessCommonPrefix(p[1..], a, b);
    }
  }

  /** The strings of `s` are strictly increasing. */
  predicate StrictlyIncreasing(s: seq<string>)
  {
    forall i, j :: 0 <= i < j < |s| ==> Less(s[i], s[j])
  }

  /** `k` is the least element of `s`. */
  predicate IsLeast(k: string, s: set<string>)
  {
    k in s && forall j :: j in s ==> !Less(j, k)
  }

  lemma LeastExists(s: set<string>)
    requires s != {}
    ensures exists k :: IsLeast(k, s)
  {
    var x :| x in s;
    if s == {x} {
      LessIrreflexive(x);
      assert IsLeast(x, s);
    } else {
      LeastExists(s - {x});
      var y :| IsLeast(y, s - {x});
      if Less(x, y) {
        forall j | j in s
          ensures !Less(j, x)
        {
          if j == x {
            LessIrreflexive(x);
          } else if Less(j, x) {
            LessTransitive(j, x, y);
          }
        }
        assert IsLeast(x, s);
      } else {
        LessTrichotomy(x, y);
        assert IsLeast(y, s);
      }
    }
  }

  /** The keys of a Go map in increasing order: the order `sort.Slice` leaves them in. */
  function SortedKeys(s: set<string>): (r: seq<string>)
    ensures |r| == |s|
    ensures forall i :: 0 <= i < |r| ==> r[i] in s
    ensures forall k :: k in s ==> k in r
    ensures StrictlyIncreasing(r)
    decreases |s|
  {
    if s == {} then []
    else
      LeastExists(s);
      LessTrichotomyAll();
      var k :| IsLeast(k, s);
      var rest := SortedKeys(s - {k});
      assert forall i :: 0 <= i < |rest| ==> Less(k, rest[i]);
      [k] + rest
  }
}

=== FILE: suggestions.dfy ===
/**
 * Completion candidates: filtering by prefix or substring, sorting by text, and
 * the candidates listing a map's command words or named arguments.
 */
module Suggestions {
  import opened Strings
  import opened Grammar

  /** A recommended completion and the text shown beside it. */
  datatype Suggestion = Suggestion(text: string, description: string)

  /** `r` is `s` with some elements left out, the rest in their original order. */
  predicate IsSubsequence(r: seq<Suggestion>, s: seq<Suggestion>)
  {
    if |r| == 0 then true
    else if |s| == 0 then false
    else if r[0] == s[0] then IsSubsequence(r[1..], s[1..])
    else IsSubsequence(r, s[1..])
  }

  /** The elements of `s` that `keep` accepts, in order, every occurrence kept. */
  function Filter(s: seq<Suggestion>, keep: Suggestion -> bool): (r: seq<Suggestion>)
    ensures IsSubsequence(r, s)
    ensures forall x :: multiset(r)[x] == if keep(x) then multiset(s)[x] else 0
    ensures |r| <= |s|
  {
    if |s| == 0 then []
    else
      var rest := Filter(s[1..], keep);
      assert s == [s[0]] + s[1..];
      if keep(s[0]) then [s[0]] + rest else rest
  }

  /** Filtering twice with the same test is filtering once. */
  lemma {:induction false} FilterIdempotent(s: seq<Suggestion>, keep: Suggestion -> bool)
    ensures Filter(Filter(s, keep), keep) == Filter(s, keep)
  {
    if |s| > 0 {
      FilterIdempotent(s[1..], keep);
      if keep(s[0]) {
        assert ([s[0]] + Filter(s[1..], keep))[1..] == Filter(s[1..], keep);
      }
    }
  }

  /** A test that accepts every element leaves the sequence unchanged. */
  lemma {:induction false} FilterKeepAll(s: seq<Suggestion>, keep: Suggestion -> bool)
    requires forall i :: 0 <= i < |s| ==> keep(s[i])
    ensures Filter(s, keep) == s
  {
    if |s| > 0 {
      FilterKeepAll(s[1..], keep);
      assert s == [s[0]] + s[1..];
    }
  }

  /** Whether `x.text` starts with `prefix`, comparing in lower case when `ignoreCase`. */
  predicate MatchesPrefix(x: Suggestion, prefix: string, ignoreCase: bool)
  {
    if ignoreCase then HasPrefix(ToLower(x.text), ToLower(prefix)) else HasPrefix(x.text, prefix)
  }

  /** Whether `x.text` contains `str`, comparing in lower case when `ignoreCase`. */
  predicate MatchesContains(x: Suggestion, str: string, ignoreCase: bool)
  {
    if ignoreCase then Contains(ToLower(x.text), ToLower(str)) else Contains(x.text, str)
  }

  /** `FilterHasPrefix`: the suggestions whose text starts with `prefix`, order preserved. */
  function FilterHasPrefix(s: seq<Suggestion>, prefix: string, ignoreCase: bool): (r: seq<Suggestion>)
    ensures IsSubsequence(r, s)
    ensures forall x :: multiset(r)[x] == if MatchesPrefix(x, prefix, ignoreCase) then multiset(s)[x] else 0
  {
    Filter(s, x => MatchesPrefix(x, prefix, ignoreCase))
  }

  /** `FilterContains`: the suggestions whose text contains `str`, order preserved. */
  function FilterContains(s: seq<Suggestion>, str: string, ignoreCase: bool): (r: seq<Suggestion>)
    ensures IsSubsequence(r, s)
    ensures forall x :: multiset(r)[x] == if MatchesContains(x, str, ignoreCase) then multiset(s)[x] else 0
  {
    Filter(s, x => MatchesContains(x, str, ignoreCase))
  }

  /** A filter that rejects every element keeps nothing. */
  lemma {:induction false} FilterNone(s: seq<Suggestion>, keep: Suggestion -> bool)
    requires forall i :: 0 <= i < |s| ==> !keep(s[i])
    ensures Filter(s, keep) == []
  {
    if |s| > 0 {
      FilterNone(s[1..], keep);
    }
  }

  lemma FilterHasPrefixNone(s: seq<Suggestion>, prefix: string, ignoreCase: bool)
    requires forall i :: 0 <= i < |s| ==> !MatchesPrefix(s[i], prefix, ignoreCase)
    ensures FilterHasPrefix(s, prefix, ignoreCase) == []
  {
    FilterNone(s, x => MatchesPrefix(x, prefix, ignoreCase));
  }

  lemma FilterHasPrefixIdempotent(s: seq<Suggestion>, prefix: string, ignoreCase: bool)
    ensures FilterHasPrefix(FilterHasPrefix(s, prefix, ignoreCase), prefix, ignoreCase)
         == FilterHasPrefix(s, prefix, ignoreCase)
  {
    FilterIdempotent(s, x => MatchesPrefix(x, prefix, ignoreCase));
  }

  lemma FilterContainsIdempotent(s: seq<Suggestion>, str: string, ignoreCase: bool)
    ensures FilterContains(FilterContains(s, str, ignoreCase), str, ignoreCase)
         == FilterContains(s, str, ignoreCase)
  {
    FilterIdempotent(s, x => MatchesContains(x, str, ignoreCase));
  }

  /** The empty prefix keeps every suggestion. */
  lemma FilterHasPrefixEmpty(s: seq<Suggestion>, ignoreCase: bool)
    ensures FilterHasPrefix(s, "", ignoreCase) == s
  {
    FilterKeepAll(s, x => MatchesPrefix(x, "", ignoreCase));
  }

  /** The empty search string keeps every suggestion. */
  lemma FilterContainsEmpty(s: seq<Suggestion>, ignoreCase: bool)
    ensures FilterContains(s, "", ignoreCase) == s
  {
    forall i | 0 <= i < |s|
      ensures MatchesContains(s[i], "", ignoreCase)
    {
      assert HasPrefix(ToLower(s[i].text), "") && HasPrefix(s[i].text, "");
    }
    FilterKeepAll(s, x => MatchesContains(x, "", ignoreCase));
  }

  /** Non-decreasing by text. */
  predicate SortedByText(s: seq<Suggestion>)
  {
    forall i, j :: 0 <= i < j < |s| ==> !Less(s[j].text, s[i].text)
  }

  /** In sorted `s`, when the first element is not below `x`, none is. */
  lemma NoneBelow(x: Suggestion, s: seq<Suggestion>)
    requires SortedByText(s) && |s| > 0 && !Less(s[0].text, x.text)
    ensures forall j :: 0 <= j < |s| ==> !Less(s[j].text, x.text)
  {
    LessTrichotomyAll();
    forall j | 0 <= j < |s|
      ensures !Less(s[j].text, x.text)
    {
      if Less(s[j].text, x.text) {
        if Less(s[j].text, s[0].text) {
        } else if s[j].text != s[0].text {
          LessTransitive(s[0].text, s[j].text, x.text);
        }
      }
    }
  }

  /** `x` above the first element of sorted `s`: nothing in `x` plus the rest of `s` is below that element. */
  lemma RestNotBelowHead(x: Suggestion, s: seq<Suggestion>, rest: seq<Suggestion>)
    requires SortedByText(s) && |s| > 0 && Less(s[0].text, x.text)
    requires multiset(rest) == multiset([x]) + multiset(s[1..])
    ensures forall j :: 0 <= j < |rest| ==> !Less(rest[j].text, s[0].text)
  {
    forall j | 0 <= j < |rest|
      ensures !Less(rest[j].text, s[0].text)
    {
      assert rest[j] in multiset(rest);
      if rest[j] == x {
        if Less(x.text, s[0].text) {
          LessTransitive(x.text, s[0].text, x.text);
          LessIrreflexive(x.text);
        }
      } else {
        assert rest[j] in multiset(s[1..]);
        var k :| 0 <= k < |s[1..]| && s[1..][k] == rest[j];
        assert s[k + 1] == rest[j];
      }
    }
  }

  /** Inserts `x` before the first element whose text is not below its own. */
  function Insert(x: Suggestion, s: seq<Suggestion>): (r: seq<Suggestion>)
    requires SortedByText(s)
    ensures multiset(r) == multiset([x]) + multiset(s)
    ensures SortedByText(r)
    ensures |r| == |s| + 1
  {
    if |s| == 0 then [x]
    else if !Less(s[0].text, x.text) then
      NoneBelow(x, s);
      [x] + s
    else
      var rest := Insert(x, s[1..]);
      assert s == [s[0]] + s[1..];
      RestNotBelowHead(x, s, rest);
      [s[0]] + rest
  }

  /** `sortSuggestions`: the same suggestions, sorted by text. */
  function SortSuggestions(s: seq<Suggestion>): (r: seq<Suggestion>)
    ensures multiset(r) == multiset(s)
    ensures SortedByText(r)
    ensures |r| == |s|
  {
    if |s| == 0 then []
    else
      var rest := SortSuggestions(s[1..]);
      assert multiset(s) == multiset([s[0]]) + multiset(s[1..]) by {
        assert s == [s[0]] + s[1..];
      }
      Insert(s[0], rest)
  }

  /** Sorting an already sorted sequence returns it unchanged. */
  lemma {:induction false} SortSuggestionsSorted(s: seq<Suggestion>)
    requires SortedByText(s)
    ensures SortSuggestions(s) == s
  {
    if |s| > 0 {
      SortSuggestionsSorted(s[1..]);
      assert SortSuggestions(s[1..]) == s[1..];
      assert s == [s[0]] + s[1..];
    }
  }

  /** Strictly increasing by text. */
  predicate StrictlyIncreasingText(s: seq<Suggestion>)
  {
    forall i, j :: 0 <= i < j < |s| ==> Less(s[i].text, s[j].text)
  }

  lemma StrictlyIncreasingIsSorted(s: seq<Suggestion>)
    requires StrictlyIncreasingText(s)
    ensures SortedByText(s)
  {
    forall i, j | 0 <= i < j < |s|
      ensures !Less(s[j].text, s[i].text)
    {
      if Less(s[j].text, s[i].text) {
        LessTransitive(s[i].text, s[j].text, s[i].text);
        LessIrreflexive(s[i].text);
      }
    }
  }

  /** The command words `keys`, each with its fragment's description. */
  function CmdEntries(keys: seq<string>, cmds: map<string, Frag>): (r: seq<Suggestion>)
    requires forall i :: 0 <= i < |keys| ==> keys[i] in cmds
    ensures |r| == |keys|
    ensures forall i :: 0 <= i < |keys| ==> r[i] == Suggestion(keys[i], cmds[keys[i]].desc)
  {
    if |keys| == 0 then [] else [Suggestion(keys[0], cmds[keys[0]].desc)] + CmdEntries(keys[1..], cmds)
  }

  /** The named arguments `keys`, each written `-name`, with its description. */
  function ArgEntries(keys: seq<string>, args: map<string, NamedArg>): (r: seq<Suggestion>)
    requires forall i :: 0 <= i < |keys| ==> keys[i] in args
    ensures |r| == |keys|
    ensures forall i :: 0 <= i < |keys| ==> r[i] == Suggestion("-" + keys[i], args[keys[i]].desc)
  {
    if |keys| == 0 then [] else [Suggestion("-" + keys[0], args[keys[0]].desc)] + ArgEntries(keys[1..], args)
  }

  /** The command words of `cmds` in increasing order, each with its description. */
  lemma CmdEntriesOfSortedKeys(cmds: map<string, Frag>)
    ensures var entries := CmdEntries(SortedKeys(cmds.Keys), cmds);
      && |entries| == |cmds|
      && (forall i :: 0 <= i < |entries| ==> entries[i].text in cmds && entries[i].description == cmds[entries[i].text].desc)
      && StrictlyIncreasingText(entries)
      && forall k :: k in cmds ==> Suggestion(k, cmds[k].desc) in entries
  {
    var keys := SortedKeys(cmds.Keys);
    var entries := CmdEntries(keys, cmds);
    assert |cmds.Keys| == |cmds|;
    forall k | k in cmds
      ensures Suggestion(k, cmds[k].desc) in entries
    {
      var i :| 0 <= i < |keys| && keys[i] == k;
      assert entries[i] == Suggestion(k, cmds[k].desc);
    }
  }

  /** `x` offers a named argument of `args`: its text is `-name` and it carries that argument's description. */
  predicate IsArgEntry(x: Suggestion, args: map<string, NamedArg>)
  {
    HasPrefix(x.text, "-") && x.text[1..] in args && x.description == args[x.text[1..]].desc
  }

  /** The named arguments of `args` in increasing order, each written `-name`, with its description. */
  lemma ArgEntriesOfSortedKeys(args: map<string, NamedArg>)
    ensures var entries := ArgEntries(SortedKeys(args.Keys), args);
      && StrictlyIncreasingText(entries)
      && (forall i :: 0 <= i < |entries| ==> IsArgEntry(entries[i], args))
      && forall k :: k in args ==> Suggestion("-" + k, args[k].desc) in entries
  {
    var keys := SortedKeys(args.Keys);
    ArgEntriesIncreasing(keys, args);
    ArgEntriesDescribe(keys, args);
    ArgEntriesCover(keys, args);
  }

  lemma ArgEntriesIncreasing(keys: seq<string>, args: map<string, NamedArg>)
    requires forall i :: 0 <= i < |keys| ==> keys[i] in args
    requires StrictlyIncreasing(keys)
    ensures StrictlyIncreasingText(ArgEntries(keys, args))
  {
    var entries := ArgEntries(keys, args);
    forall i, j | 0 <= i < j < |entries|
      ensures Less(entries[i].text, entries[j].text)
    {
      LessCommonPrefix("-", keys[i], keys[j]);
    }
  }

  lemma ArgEntriesDescribe(keys: seq<string>, args: map<string, NamedArg>)
    requires forall i :: 0 <= i < |keys| ==> keys[i] in args
    ensures forall i :: 0 <= i < |keys| ==> IsArgEntry(ArgEntries(keys, args)[i], args)
  {
    var entries := ArgEntries(keys, args);
    forall i | 0 <= i < |entries|
      ensures IsArgEntry(entries[i], args)
    {
      assert ("-" + keys[i])[1..] == keys[i];
    }
  }

  lemma ArgEntriesCover(keys: seq<string>, args: map<string, NamedArg>)
    requires forall i :: 0 <= i < |keys| ==> keys[i] in args
    requires forall k :: k in args ==> k in keys
    ensures forall k :: k in args ==> Suggestion("-" + k, args[k].desc) in ArgEntries(keys, args)
  {
    var entries := ArgEntries(keys, args);
    forall k | k in args
      ensures Suggestion("-" + k, args[k].desc) in entries
    {
      var i :| 0 <= i < |keys| && keys[i] == k;
      assert entries[i] == Suggestion("-" + k, args[k].desc);
    }
  }

  /** `cmdSuggestions`: one suggestion per command word, its description alongside, sorted. */
  function CmdSuggestions(cmds: map<string, Frag>): (r: seq<Suggestion>)
    ensures |r| == |cmds|
    ensures forall i :: 0 <= i < |r| ==> r[i].text in cmds && r[i].description == cmds[r[i].text].desc
    ensures forall k :: k in cmds ==> Suggestion(k, cmds[k].desc) in r
    ensures StrictlyIncreasingText(r)
  {
    var entries := CmdEntries(SortedKeys(cmds.Keys), cmds);
    CmdEntriesOfSortedKeys(cmds);
    StrictlyIncreasingIsSorted(entries);
    SortSuggestionsSorted(entries);
    assert SortSuggestions(entries) == entries;
    SortSuggestions(entries)
  }

  /** `argSuggestions`: one suggestion `-name` per named argument, its description alongside, sorted. */
  function ArgSuggestions(args: map<string, NamedArg>): (r: seq<Suggestion>)
    ensures |r| == |args|
    ensures forall i :: 0 <= i < |r| ==> IsArgEntry(r[i], args)
    ensures forall k :: k in args ==> Suggestion("-" + k, args[k].desc) in r
    ensures StrictlyIncreasingText(r)
  {
    var entries := ArgEntries(SortedKeys(args.Keys), args);
    ArgEntriesOfSortedKeys(args);
    StrictlyIncreasingIsSorted(entries);
    SortSuggestionsSorted(entries);
    SortSuggestions(entries)
  }
}

=== FILE: table.dfy ===
/**
 * The CLI's table printer: column widths fitted to the contents, the widest
 * column cut so a line fits the terminal, then a header, a rule of `=` and
 * one line per row, cells left-aligned and padded or truncated to width.
 */
module Table {
  import opened Strings

  datatype Table = Table(columns: seq<string>, rows: seq<seq<string>>)

  function Max(a: int, b: int): int { if a >= b then a else b }

  /** No row has more cells than there are columns (a longer row is an index panic). */
  predicate RowsFit(t: Table)
  {
    forall j :: 0 <= j < |t.rows| ==> |t.rows[j]| <= |t.columns|
  }

  predicate NonNeg(w: seq<int>)
  {
    forall i :: 0 <= i < |w| ==> w[i] >= 0
  }

  /** `updateColWidths`: each width grows to the length of the matching cell of `a`. */
  function UpdateColWidths(a: seq<string>, widths: seq<int>): (r: seq<int>)
    requires |a| <= |widths|
    ensures |r| == |widths|
    ensures forall i :: 0 <= i < |widths| ==> r[i] >= widths[i]
    ensures forall i :: 0 <= i < |a| ==> r[i] >= |a[i]|
    ensures forall i :: 0 <= i < |widths| ==> r[i] == widths[i] || (i < |a| && r[i] == |a[i]|)
  {
    seq(|widths|, i requires 0 <= i < |widths| => if i < |a| && |a[i]| > widths[i] then |a[i]| else widths[i])
  }

  /** Reference: the length of the longest cell in column `i` of `rows`, or 0. */
  function ColMax(rows: seq<seq<string>>, i: nat): nat
  {
    if |rows| == 0 then 0
    else Max(if i < |rows[0]| then |rows[0][i]| else 0, ColMax(rows[1..], i))
  }

  /** `ColMax` is the longest cell of the column: no cell is longer, and one has that length unless it is 0. */
  lemma {:induction false} ColMaxIsLongest(rows: seq<seq<string>>, i: nat)
    ensures forall j :: 0 <= j < |rows| && i < |rows[j]| ==> |rows[j][i]| <= ColMax(rows, i)
    ensures ColMax(rows, i) == 0 || exists j :: 0 <= j < |rows| && i < |rows[j]| && |rows[j][i]| == ColMax(rows, i)
  {
    if |rows| > 0 {
      ColMaxIsLongest(rows[1..], i);
      forall j | 1 <= j < |rows| && i < |rows[j]|
        ensures |rows[j][i]| <= ColMax(rows, i)
      {
        assert rows[1..][j - 1] == rows[j];
      }
      if ColMax(rows, i) != 0 && !(i < |rows[0]| && |rows[0][i]| == ColMax(rows, i)) {
        var j :| 0 <= j < |rows[1..]| && i < |rows[1..][j]| && |rows[1..][j][i]| == ColMax(rows[1..], i);
        assert rows[j + 1] == rows[1..][j];
      }
    }
  }

  /** The width scan over header and rows: each width ends as the larger of its start and its column's longest cell. */
  function ScanWidths(rows: seq<seq<string>>, widths: seq<int>): (r: seq<int>)
    requires forall j :: 0 <= j < |rows| ==> |rows[j]| <= |widths|
    requires NonNeg(widths)
    ensures |r| == |widths|
    ensures forall i :: 0 <= i < |widths| ==> r[i] == Max(widths[i], ColMax(rows, i))
    decreases |rows|
  {
    if |rows| == 0 then widths
    else
      var next := UpdateColWidths(rows[0], widths);
      assert forall j :: 0 <= j < |rows[1..]| ==> rows[1..][j] == rows[j + 1];
      ScanWidths(rows[1..], next)
  }

  function Zeros(n: nat): (r: seq<int>)
    ensures |r| == n && NonNeg(r)
    ensures forall i :: 0 <= i < n ==> r[i] == 0
  {
    seq(n, i => 0)
  }

  /** The widths before cutting: per column, the longest of the header and the row cells. */
  function NaturalWidths(t: Table): (r: seq<int>)
    requires RowsFit(t)
    ensures |r| == |t.columns| && NonNeg(r)
    ensures forall i :: 0 <= i < |r| ==> r[i] == ColMax([t.columns] + t.rows, i)
  {
    var all := [t.columns] + t.rows;
    assert forall j :: 1 <= j < |all| ==> all[j] == t.rows[j - 1];
    ScanWidths(all, Zeros(|t.columns|))
  }

  /** The first column of greatest width among the first `k` (0 when `k` is 0). */
  function LargestUpTo(w: seq<int>, k: nat): (r: nat)
    requires k <= |w|
    ensures k == 0 ==> r == 0
    ensures k > 0 ==> r < k
    ensures forall i :: 0 <= i < k ==> w[i] <= w[r]
    ensures forall i :: 0 <= i < r ==> w[i] < w[r]
  {
    if k == 0 then 0
    else
      var l := LargestUpTo(w, k - 1);
      if k - 1 > 0 && w[k - 1] > w[l] then k - 1
      else if k - 1 == 0 then 0
      else l
  }

  /** The column the cut is taken from: the first of the greatest width. */
  function LargestCol(w: seq<int>): (r: nat)
    ensures |w| == 0 ==> r == 0
    ensures |w| > 0 ==> r < |w| && (forall i :: 0 <= i < |w| ==> w[i] <= w[r]) && (forall i :: 0 <= i < r ==> w[i] < w[r])
  {
    LargestUpTo(w, |w|)
  }

  function Sum(w: seq<int>): int
  {
    if |w| == 0 then 0 else Sum(w[..|w| - 1]) + w[|w| - 1]
  }

  /** The width of a line showing every column: the widths plus one space between neighbours. */
  function TotalWidth(w: seq<int>): int
  {
    if |w| == 0 then 0 else Sum(w) + |w| - 1
  }

  /** Printing requires the cut to leave the largest column a non-negative width (a negative count panics). */
  predicate CutFits(w: seq<int>, width: int)
  {
    var toCut := TotalWidth(w) - width;
    toCut <= 0 || (|w| > 0 && toCut <= w[LargestCol(w)])
  }

  /** The widths after cutting: only the largest column shrinks, by exactly the excess over `width`. */
  function CutWidths(w: seq<int>, width: int): (r: seq<int>)
    requires NonNeg(w) && CutFits(w, width)
    ensures |r| == |w| && NonNeg(r)
    ensures forall i :: 0 <= i < |w| && i != LargestCol(w) ==> r[i] == w[i]
    ensures TotalWidth(w) <= width ==> r == w
    ensures TotalWidth(w) > width ==> r[LargestCol(w)] == w[LargestCol(w)] - (TotalWidth(w) - width)
  {
    var toCut := TotalWidth(w) - width;
    if toCut > 0 then w[LargestCol(w) := w[LargestCol(w)] - toCut] else w
  }

  lemma {:induction false} SumUpdate(w: seq<int>, k: nat, v: int)
    requires k < |w|
    ensures Sum(w[k := v]) == Sum(w) - w[k] + v
    decreases |w|
  {
    var n := |w|;
    assert w[k := v][..n - 1] == if k == n - 1 then w[..n - 1] else w[..n - 1][k := v];
    if k < n - 1 {
      SumUpdate(w[..n - 1], k, v);
    }
  }

  /** After the cut a full line is exactly as wide as the widths allow, or `width` if they did not fit. */
  lemma CutTotal(w: seq<int>, width: int)
    requires NonNeg(w) && CutFits(w, width)
    ensures TotalWidth(CutWidths(w, width)) == if TotalWidth(w) > width then width else TotalWidth(w)
  {
    if TotalWidth(w) > width {
      SumUpdate(w, LargestCol(w), w[LargestCol(w)] - (TotalWidth(w) - width));
    }
  }

  /** The `%-*.*s` verb: the cell truncated or space-padded to exactly `w` characters. */
  function Cell(c: string, w: int): (r: string)
    requires w >= 0
    ensures |r| == w
    ensures |c| >= w ==> r == c[..w]
    ensures |c| < w ==> r[..|c|] == c && forall i :: |c| <= i < w ==> r[i] == ' '
  {
    if |c| >= w then c[..w] else c + Repeat(' ', w - |c|)
  }

  /** One printed line: the cells of a row, each fitted to its column, joined by single spaces. */
  function Row(cells: seq<string>, w: seq<int>): (r: string)
    requires |cells| <= |w| && NonNeg(w)
    ensures |r| == TotalWidth(w[..|cells|])
    decreases |cells|
  {
    var n := |cells|;
    if n == 0 then ""
    else
      assert w[..n][..n - 1] == w[..n - 1];
      assert w[..n][n - 1] == w[n - 1];
      var c := Cell(cells[n - 1], w[n - 1]);
      if n == 1 then
        assert Sum(w[..1]) == Sum(w[..0]) + w[0];
        c
      else Row(cells[..n - 1], w) + " " + c
  }

  /** Where column `i` starts on a line. */
  function Offset(w: seq<int>, i: nat): (r: int)
    requires i <= |w| && NonNeg(w)
    ensures r >= i
  {
    assert NonNeg(w[..i]);
    SumNonNeg(w[..i]);
    Sum(w[..i]) + i
  }

  lemma SumNonNeg(w: seq<int>)
    requires NonNeg(w)
    ensures Sum(w) >= 0
  {
    if |w| > 0 {
      assert NonNeg(w[..|w| - 1]);
      SumNonNeg(w[..|w| - 1]);
    }
  }

  /**
   * Columns line up: on every line, the characters from `Offset(w, i)` on are
   * cell `i` fitted to its width, preceded by a space when it is not the first.
   */
  lemma {:induction false} RowColumns(cells: seq<string>, w: seq<int>, i: nat)
    requires |cells| <= |w| && NonNeg(w) && i < |cells|
    ensures Offset(w, i) + w[i] <= |Row(cells, w)|
    ensures Row(cells, w)[Offset(w, i)..Offset(w, i) + w[i]] == Cell(cells[i], w[i])
    ensures i > 0 ==> Row(cells, w)[Offset(w, i) - 1] == ' '
    decreases |cells|
  {
    var n := |cells|;
    if i == n - 1 {
      RowLastColumn(cells, w);
    } else {
      RowColumns(cells[..n - 1], w, i);
      RowEarlierColumn(cells, w, i);
    }
  }

  lemma RowLastColumn(cells: seq<string>, w: seq<int>)
    requires 0 < |cells| <= |w| && NonNeg(w)
    ensures var i := |cells| - 1;
      && Offset(w, i) + w[i] <= |Row(cells, w)|
      && Row(cells, w)[Offset(w, i)..Offset(w, i) + w[i]] == Cell(cells[i], w[i])
      && (i > 0 ==> Row(cells, w)[Offset(w, i) - 1] == ' ')
  {
    var n := |cells|;
    var c := Cell(cells[n - 1], w[n - 1]);
    assert w[..n][..n - 1] == w[..n - 1];
    if n == 1 {
      assert w[..0] == [];
    } else {
      var prefix := Row(cells[..n - 1], w);
      assert Row(cells, w) == prefix + " " + c;
      assert |prefix| == Offset(w, n - 1) - 1;
    }
  }

  lemma RowEarlierColumn(cells: seq<string>, w: seq<int>, i: nat)
    requires |cells| <= |w| && NonNeg(w) && i + 1 < |cells|
    requires var p := Row(cells[..|cells| - 1], w);
      && Offset(w, i) + w[i] <= |p|
      && p[Offset(w, i)..Offset(w, i) + w[i]] == Cell(cells[i], w[i])
      && (i > 0 ==> p[Offset(w, i) - 1] == ' ')
    ensures Offset(w, i) + w[i] <= |Row(cells, w)|
    ensures Row(cells, w)[Offset(w, i)..Offset(w, i) + w[i]] == Cell(cells[i], w[i])
    ensures i > 0 ==> Row(cells, w)[Offset(w, i) - 1] == ' '
  {
    var n := |cells|;
    var prefix := Row(cells[..n - 1], w);
    var r := Row(cells, w);
    assert r == prefix + " " + Cell(cells[n - 1], w[n - 1]);
    PrefixSlice(prefix, " " + Cell(cells[n - 1], w[n - 1]), Offset(w, i), Offset(w, i) + w[i]);
  }

  lemma PrefixSlice(p: string, q: string, a: nat, b: nat)
    requires a <= b <= |p|
    ensures (p + q)[a..b] == p[a..b]
    ensures a > 0 ==> (p + q)[a - 1] == p[a - 1]
  {
  }

  /** Widening the prefix never shrinks its sum. */
  lemma {:induction false} SumPrefixMono(w: seq<int>, a: nat, b: nat)
    requires a <= b <= |w| && NonNeg(w)
    ensures Sum(w[..a]) + a <= Sum(w[..b]) + b - (if a < b then 1 else 0)
    decreases b - a
  {
    if a < b {
      assert w[..b][..b - 1] == w[..b - 1];
      SumPrefixMono(w, a, b - 1);
    }
  }

  /** The rule under the header: one run of `=` per column, as wide as the column. */
  function Bars(w: seq<int>): (r: seq<string>)
    requires NonNeg(w)
    ensures |r| == |w|
    ensures forall i :: 0 <= i < |w| ==> |r[i]| == w[i] && forall k :: 0 <= k < w[i] ==> r[i][k] == '='
  {
    seq(|w|, i requires 0 <= i < |w| => Repeat('=', w[i]))
  }

  /** The widths the table is printed with. */
  function PrintWidths(t: Table, width: int): (r: seq<int>)
    requires RowsFit(t) && CutFits(NaturalWidths(t), width)
    ensures |r| == |t.columns| && NonNeg(r)
  {
    CutWidths(NaturalWidths(t), width)
  }

  /** `Table.Print` as its lines: header, rule, then one line per row. */
  function Lines(t: Table, width: int): (r: seq<string>)
    requires RowsFit(t) && CutFits(NaturalWidths(t), width)
    ensures |r| == |t.rows| + 2
  {
    LinesWith(t, PrintWidths(t, width))
  }

  /** The lines printed with column widths `w`. */
  function LinesWith(t: Table, w: seq<int>): (r: seq<string>)
    requires RowsFit(t) && |w| == |t.columns| && NonNeg(w)
    ensures |r| == |t.rows| + 2
  {
    [Row(t.columns, w), Row(Bars(w), w)] + RowLines(t.rows, w)
  }

  /** The lines of the rows, in order. */
  function RowLines(rows: seq<seq<string>>, w: seq<int>): (r: seq<string>)
    requires forall j :: 0 <= j < |rows| ==> |rows[j]| <= |w|
    requires NonNeg(w)
    ensures |r| == |rows|
  {
    if |rows| == 0 then []
    else RowLines(rows[..|rows| - 1], w) + [Row(rows[|rows| - 1], w)]
  }

  lemma {:induction false} RowLinesAt(rows: seq<seq<string>>, w: seq<int>, j: nat)
    requires forall j :: 0 <= j < |rows| ==> |rows[j]| <= |w|
    requires NonNeg(w) && j < |rows|
    ensures RowLines(rows, w)[j] == Row(rows[j], w)
  {
    var n := |rows|;
    if j < n - 1 {
      RowLinesAt(rows[..n - 1], w, j);
    }
  }

  /** The text written: every line followed by a newline. */
  function Render(lines: seq<string>): string
  {
    if |lines| == 0 then "" else Render(lines[..|lines| - 1]) + lines[|lines| - 1] + "\n"
  }

  function Print(t: Table, width: int): string
    requires RowsFit(t) && CutFits(NaturalWidths(t), width)
  {
    Render(Lines(t, width))
  }

  /** With widths `w`, the header, the rule and every row with a cell per column are `TotalWidth(w)` wide. */
  lemma LinesWidths(t: Table, w: seq<int>)
    requires RowsFit(t) && |w| == |t.columns| && NonNeg(w)
    ensures var lines := LinesWith(t, w);
      && |lines[0]| == |lines[1]| == TotalWidth(w)
      && forall j :: 0 <= j < |t.rows| && |t.rows[j]| == |t.columns| ==> |lines[j + 2]| == TotalWidth(w)
  {
    assert w[..|w|] == w;
    forall j | 0 <= j < |t.rows|
      ensures LinesWith(t, w)[j + 2] == Row(t.rows[j], w)
    {
      LinesAt(t, w, j);
    }
  }

  /**
   * Printing fits the terminal: the header, the rule and every row with a
   * cell per column are exactly as wide as the natural widths need, or
   * `width` when those do not fit.
   */
  lemma LinesShape(t: Table, width: int)
    requires RowsFit(t) && CutFits(NaturalWidths(t), width)
    ensures var lines := Lines(t, width); var n := TotalWidth(NaturalWidths(t));
      && |lines[0]| == |lines[1]| == (if n > width then width else n)
      && forall j :: 0 <= j < |t.rows| && |t.rows[j]| == |t.columns| ==> |lines[j + 2]| == |lines[0]|
  {
    CutTotal(NaturalWidths(t), width);
    LinesWidths(t, PrintWidths(t, width));
  }

  /** Within a column, the rule is all `=`. */
  lemma RuleColumn(w: seq<int>, i: nat)
    requires NonNeg(w) && i < |w|
    ensures var bar := Row(Bars(w), w); var o := Offset(w, i);
      o + w[i] <= |bar| && forall k :: o <= k < o + w[i] ==> bar[k] == '='
  {
    var bars := Bars(w);
    var bar := Row(bars, w);
    var o := Offset(w, i);
    RowColumns(bars, w, i);
    var b := bars[i];
    assert Cell(b, w[i]) == b by {
      assert |b| == w[i] && b[..w[i]] == b;
    }
    var cell := bar[o..o + w[i]];
    assert cell == b;
    forall k | o <= k < o + w[i]
      ensures bar[k] == '='
    {
      assert bar[k] == cell[k - o] == b[k - o];
    }
  }

  lemma LinesAt(t: Table, w: seq<int>, j: nat)
    requires RowsFit(t) && |w| == |t.columns| && NonNeg(w) && j < |t.rows|
    ensures var lines := LinesWith(t, w);
      lines[0] == Row(t.columns, w) && lines[1] == Row(Bars(w), w) && lines[j + 2] == Row(t.rows[j], w)
  {
    RowLinesAt(t.rows, w, j);
  }

  /** Header cell `i` occupies `w[i]` characters from `Offset(w, i)`. */
  lemma HeaderAligned(t: Table, w: seq<int>, i: nat)
    requires RowsFit(t) && |w| == |t.columns| && NonNeg(w)
    requires i < |t.columns|
    ensures var lines := LinesWith(t, w); var o := Offset(w, i);
      o + w[i] <= |lines[0]| && lines[0][o..o + w[i]] == Cell(t.columns[i], w[i])
  {
    RowColumns(t.columns, w, i);
  }

  /** Under header cell `i` the rule is `=` throughout, so the columns are underlined one by one. */
  lemma RuleAligned(t: Table, w: seq<int>, i: nat)
    requires RowsFit(t) && |w| == |t.columns| && NonNeg(w)
    requires i < |t.columns|
    ensures var lines := LinesWith(t, w); var o := Offset(w, i);
      o + w[i] <= |lines[1]| && forall k :: o <= k < o + w[i] ==> lines[1][k] == '='
  {
    RuleColumn(w, i);
  }

  /** Cell `i` of every row occupies the same characters as header cell `i`. */
  lemma RowAligned(t: Table, w: seq<int>, j: nat, i: nat)
    requires RowsFit(t) && |w| == |t.columns| && NonNeg(w)
    requires j < |t.rows| && i < |t.rows[j]|
    ensures var lines := LinesWith(t, w); var o := Offset(w, i);
      o + w[i] <= |lines[j + 2]| && lines[j + 2][o..o + w[i]] == Cell(t.rows[j][i], w[i])
  {
    LinesAt(t, w, j);
    RowColumns(t.rows[j], w, i);
  }
}

=== FILE: table_examples.dfy ===
/**
 * The table printer's test: a two-column table printed 30 wide, whose
 * second column is cut from 20 to 11 so each line is exactly 30 wide.
 */
module TableExamples {
  import opened Strings
  import opened Table
  const TestTable: Table := Table(["Name", "Cost"], [["This is a big name", "$1000"], ["name", "$$$ very large value"]])

  /** Before the cut: the longest name is 18 long, the longest cost 20. */
  lemma TableWidths()
    ensures RowsFit(TestTable)
    ensures NaturalWidths(TestTable) == [18, 20]
  {
    var all := [TestTable.columns] + TestTable.rows;
    assert |all[1][0]| == 18 && |all[2][1]| == 20;
    ColMaxIsLongest(all, 0);
    ColMaxIsLongest(all, 1);
  }

  /** The natural lines are 39 wide, so the wider second column loses 9. */
  lemma TableCut()
    ensures RowsFit(TestTable) && CutFits(NaturalWidths(TestTable), 30)
    ensures PrintWidths(TestTable, 30) == [18, 11]
  {
    TableWidths();
    var w: seq<int> := [18, 20];
    assert LargestCol(w) == 1;
    assert Sum(w) == 38 by {
      assert w[..1] == [18];
      assert [18][..0] == [];
    }
    assert TotalWidth(w) == 39;
  }

  /** A line of two cells. */
  lemma TwoCells(a: string, b: string, x: int, y: int)
    requires x >= 0 && y >= 0
    ensures Row([a, b], [x, y]) == Cell(a, x) + " " + Cell(b, y)
  {
    assert [a, b][..1] == [a];
  }

  lemma Spaces(n: nat, s: string)
    requires |s| == n && forall i :: 0 <= i < n ==> s[i] == ' '
    ensures Repeat(' ', n) == s
  {
  }

  /** A cell shorter than its column: the text, then spaces. */
  lemma Padded(c: string, w: int, pad: string)
    requires |c| <= w && |pad| == w - |c| && forall i :: 0 <= i < |pad| ==> pad[i] == ' '
    ensures Cell(c, w) == c + pad
  {
    Spaces(w - |c|, pad);
  }

  lemma HeaderLine()
    ensures Row(["Name", "Cost"], [18, 11]) == "Name               Cost       "
  {
    TwoCells("Name", "Cost", 18, 11);
    Padded("Name", 18, "              ");
    Padded("Cost", 11, "       ");
  }

  lemma RuleLine()
    ensures Row(Bars([18, 11]), [18, 11]) == "================== ==========="
  {
    var bars := Bars([18, 11]);
    assert bars == [bars[0], bars[1]];
    assert bars[0] == "==================";
    assert bars[1] == "===========";
    TwoCells(bars[0], bars[1], 18, 11);
  }

  lemma FirstRowLine()
    ensures Row(["This is a big name", "$1000"], [18, 11]) == "This is a big name $1000      "
  {
    TwoCells("This is a big name", "$1000", 18, 11);
    Padded("$1000", 11, "      ");
  }

  lemma SecondRowLine()
    ensures Row(["name", "$$$ very large value"], [18, 11]) == "name               $$$ very la"
  {
    TwoCells("name", "$$$ very large value", 18, 11);
    Padded("name", 18, "              ");
  }

  /** Four lines, each followed by a newline. */
  lemma RenderFour(a: string, b: string, c: string, d: string)
    ensures Render([a, b, c, d]) == a + "\n" + b + "\n" + c + "\n" + d + "\n"
  {
    assert [a, b, c, d][..3] == [a, b, c];
    assert [a, b, c][..2] == [a, b];
    assert [a, b][..1] == [a];
    assert [a][..0] == [];
    assert Render([a]) == a + "\n" by {
      assert "" + a == a;
    }
    assert Render([a, b]) == a + "\n" + b + "\n";
    assert Render([a, b, c]) == a + "\n" + b + "\n" + c + "\n";
  }

  lemma TableLines()
    ensures RowsFit(TestTable) && CutFits(NaturalWidths(TestTable), 30)
    ensures Lines(TestTable, 30) == [
      "Name               Cost       ",
      "================== ===========",
      "This is a big name $1000      ",
      "name               $$$ very la"]
  {
    TableCut();
    var w := PrintWidths(TestTable, 30);
    var rows := TestTable.rows;
    assert RowLines(rows, w) == [Row(rows[0], w), Row(rows[1], w)] by {
      assert rows[..1] == [rows[0]];
      assert rows[..1][..0] == [];
    }
    HeaderLine();
    RuleLine();
    FirstRowLine();
    SecondRowLine();
  }

  /** The text printed, as the test expects it. */
  lemma TablePrint()
    ensures RowsFit(TestTable) && CutFits(NaturalWidths(TestTable), 30)
    ensures Print(TestTable, 30) ==
      "Name               Cost       " + "\n" +
      "================== ===========" + "\n" +
      "This is a big name $1000      " + "\n" +
      "name               $$$ very la" + "\n"
  {
    TableLines();
    RenderFour("Name               Cost       ", "================== ===========",
      "This is a big name $1000      ", "name               $$$ very la");
  }
}

=== FILE: tokenizer.dfy ===
/**
 * The command-line tokenizer: a character-by-character scan that splits on
 * spaces, groups text between double quotes into one token, and reports
 * whether the line ends in whitespace outside a quote.
 */
module Tokenizer {
  import opened Strings

  /** The scanner's state: tokens emitted so far, the token being built, and whether a quote is open. */
  datatype Scan = Scan(tokens: seq<string>, token: string, inQuote: bool)

  /** The result of `tokenize`: the tokens and the `wsAtEnd` flag. */
  datatype Tokens = Tokens(tokens: seq<string>, wsAtEnd: bool)

  const Initial := Scan([], "", false)

  /** One character of the scan. */
  function Step(st: Scan, c: char): Scan
  {
    if c == '"' then
      // A quote ends the current token: always inside a quote, only a non-empty one outside
      var flushed := if st.inQuote || st.token != "" then st.tokens + [st.token] else st.tokens;
      Scan(flushed, "", !st.inQuote)
    else if c == ' ' && !st.inQuote then
      if st.token != "" then Scan(st.tokens + [st.token], "", false) else st
    else
      Scan(st.tokens, st.token + [c], st.inQuote)
  }

  /** The scan of `s` from state `st`, one character at a time from the left. */
  function Run(st: Scan, s: string): Scan
    decreases |s|
  {
    if |s| == 0 then st else Step(Run(st, s[..|s| - 1]), s[|s| - 1])
  }

  /** The tokens of a finished scan: a non-empty pending token is emitted. */
  function Flush(st: Scan): seq<string>
  {
    if st.token != "" then st.tokens + [st.token] else st.tokens
  }

  /** `tokenize`: the tokens of `line` and whether it ends in a space outside a quote. */
  function Tokenize(line: string): Tokens
  {
    var st := Run(Initial, line);
    Tokens(Flush(st), !st.inQuote && HasSuffix(line, " "))
  }

  lemma DropLastAppend<T>(s: seq<T>)
    requires |s| > 0
    ensures s[..|s| - 1] + [s[|s| - 1]] == s
  {
  }

  lemma {:induction false} RunAppend(st: Scan, a: string, b: string)
    ensures Run(st, a + b) == Run(Run(st, a), b)
    decreases |b|
  {
    if |b| == 0 {
      assert a + b == a;
    } else {
      assert (a + b)[..|a + b| - 1] == a + b[..|b| - 1];
      RunAppend(st, a, b[..|b| - 1]);
    }
  }

  /** Number of double-quote characters in `s`. */
  function QuoteCount(s: string): nat
  {
    if |s| == 0 then 0 else QuoteCount(s[..|s| - 1]) + (if s[|s| - 1] == '"' then 1 else 0)
  }

  /** No token, finished or pending, holds a quote character. */
  ghost predicate QuoteFree(st: Scan)
  {
    '"' !in st.token && forall i :: 0 <= i < |st.tokens| ==> '"' !in st.tokens[i]
  }

  /** The scan of a line: a quote is open exactly when the line holds an odd number of quotes, and no token holds a quote. */
  lemma {:induction false} RunInvariant(s: string)
    ensures Run(Initial, s).inQuote <==> QuoteCount(s) % 2 == 1
    ensures QuoteFree(Run(Initial, s))
    decreases |s|
  {
    if |s| > 0 {
      RunInvariant(s[..|s| - 1]);
    }
  }

  /** A token never contains a double quote. */
  lemma TokensHaveNoQuotes(line: string)
    ensures forall i :: 0 <= i < |Tokenize(line).tokens| ==> '"' !in Tokenize(line).tokens[i]
  {
    RunInvariant(line);
  }

  /** `wsAtEnd` holds exactly when the line has an even number of quotes and ends in a space. */
  lemma WsAtEndCharacterised(line: string)
    ensures Tokenize(line).wsAtEnd <==> QuoteCount(line) % 2 == 0 && |line| > 0 && line[|line| - 1] == ' '
  {
    RunInvariant(line);
  }

  /** Without quotes, the scan never emits an empty token and never enters a quote. */
  lemma {:induction false} RunWithoutQuotes(s: string)
    requires '"' !in s
    ensures !Run(Initial, s).inQuote
    ensures forall i :: 0 <= i < |Run(Initial, s).tokens| ==> Run(Initial, s).tokens[i] != ""
    decreases |s|
  {
    if |s| > 0 {
      assert '"' !in s[..|s| - 1] by {
        assert forall i :: 0 <= i < |s| - 1 ==> s[..|s| - 1][i] == s[i];
      }
      RunWithoutQuotes(s[..|s| - 1]);
    }
  }

  /** Spaces outside quotes never yield an empty token: a quote-free line has only non-empty tokens. */
  lemma NoEmptyTokensWithoutQuotes(line: string)
    requires '"' !in line
    ensures forall i :: 0 <= i < |Tokenize(line).tokens| ==> Tokenize(line).tokens[i] != ""
  {
    RunWithoutQuotes(line);
  }

  /** `s` contains two adjacent quote characters. */
  predicate HasEmptyQuotes(s: string)
  {
    exists i :: 0 <= i < |s| - 1 && s[i] == '"' && s[i + 1] == '"'
  }

  /**
   * Every empty token comes from a closing quote right after an opening one:
   * an open quote with nothing accumulated was just opened.
   */
  lemma {:induction false} EmptyTokenInvariant(s: string)
    ensures (Run(Initial, s).inQuote && Run(Initial, s).token == "") ==> |s| > 0 && s[|s| - 1] == '"'
    ensures "" in Run(Initial, s).tokens ==> HasEmptyQuotes(s)
    decreases |s|
  {
    if |s| > 0 {
      var p := s[..|s| - 1];
      EmptyTokenInvariant(p);
      if HasEmptyQuotes(p) {
        var i :| 0 <= i < |p| - 1 && p[i] == '"' && p[i + 1] == '"';
        assert s[i] == '"' && s[i + 1] == '"';
      }
      var st := Run(Initial, p);
      if s[|s| - 1] == '"' && st.inQuote && st.token == "" {
        assert s[|s| - 2] == '"';
      }
    }
  }

  /** The only way to get an empty token is an empty pair of quotes `""`. */
  lemma EmptyTokenNeedsEmptyQuotes(line: string)
    requires "" in Tokenize(line).tokens
    ensures HasEmptyQuotes(line)
  {
    EmptyTokenInvariant(line);
  }

  /** A word that can be typed without quoting: non-empty, no space and no quote. */
  predicate PlainWord(w: string)
  {
    w != "" && ' ' !in w && '"' !in w
  }

  /** Characters other than space and quote are appended to the pending token. */
  lemma {:induction false} RunPlain(st: Scan, w: string)
    requires ' ' !in w && '"' !in w
    ensures Run(st, w) == Scan(st.tokens, st.token + w, st.inQuote)
    decreases |w|
  {
    if |w| == 0 {
      assert st.token + w == st.token;
    } else {
      var p := w[..|w| - 1];
      assert ' ' !in p && '"' !in p by {
        assert forall i :: 0 <= i < |p| ==> p[i] == w[i];
      }
      RunPlain(st, p);
      assert st.token + p + [w[|w| - 1]] == st.token + w by {
        assert p + [w[|w| - 1]] == w;
      }
    }
  }

  /** Outside a quote with a token pending, a space emits it and a plain word becomes the next pending token. */
  lemma SpaceThenWord(st: Scan, w: string)
    requires !st.inQuote && st.token != "" && ' ' !in w && '"' !in w
    ensures Run(st, " " + w) == Scan(st.tokens + [st.token], w, false)
  {
    RunAppend(st, " ", w);
    assert Run(st, " ") == Scan(st.tokens + [st.token], "", false) by {
      assert " "[..0] == "";
    }
    RunPlain(Scan(st.tokens + [st.token], "", false), w);
    assert "" + w == w;
  }

  /** Scanning plain words joined by single spaces leaves all but the last emitted and the last pending. */
  lemma {:induction false} RunJoined(words: seq<string>)
    requires |words| > 0
    requires forall i :: 0 <= i < |words| ==> PlainWord(words[i])
    ensures Run(Initial, Join(words, " ")) == Scan(words[..|words| - 1], words[|words| - 1], false)
    decreases |words|
  {
    var n := |words|;
    if n == 1 {
      RunPlain(Initial, words[0]);
      assert Initial.token + words[0] == words[0];
    } else {
      var init := words[..n - 1];
      var w := words[n - 1];
      assert forall i :: 0 <= i < |init| ==> init[i] == words[i];
      RunJoined(init);
      var j := Join(init, " ");
      var st := Scan(init[..n - 2], init[n - 2], false);
      assert Join(words, " ") == j + (" " + w);
      RunAppend(Initial, j, " " + w);
      SpaceThenWord(st, w);
      assert init[..n - 2] + [init[n - 2]] == init;
    }
  }

  /** A space-suffix test only looks at the last character. */
  lemma SpaceSuffix(s: string)
    ensures HasSuffix(s, " ") <==> |s| > 0 && s[|s| - 1] == ' '
  {
    if |s| > 0 {
      assert s[|s| - 1..] == [s[|s| - 1]];
    }
  }

  lemma {:induction false} JoinLastChar(parts: seq<string>, sep: string)
    requires |parts| > 0 && parts[|parts| - 1] != ""
    ensures var line := Join(parts, sep); var last := parts[|parts| - 1];
      |line| >= |last| && line[|line| - 1] == last[|last| - 1]
  {
  }

  /** Round trip: plain words joined by single spaces tokenize back to the same words. */
  lemma TokenizeJoin(words: seq<string>)
    requires forall i :: 0 <= i < |words| ==> PlainWord(words[i])
    ensures Tokenize(Join(words, " ")) == Tokens(words, false)
  {
    var line := Join(words, " ");
    SpaceSuffix(line);
    if |words| == 0 {
      assert line == "";
    } else {
      var n := |words|;
      var last := words[n - 1];
      RunJoined(words);
      var st := Run(Initial, line);
      assert st == Scan(words[..n - 1], last, false);
      assert Flush(st) == words by {
        assert last != "";
        DropLastAppend(words);
      }
      JoinLastChar(words, " ");
      assert PlainWord(last);
      assert line[|line| - 1] != ' ';
      assert !HasSuffix(line, " ");
    }
  }

  /** A leading space changes no token. */
  lemma LeadingSpaceIgnored(s: string)
    ensures Tokenize(" " + s).tokens == Tokenize(s).tokens
    ensures s != "" ==> Tokenize(" " + s) == Tokenize(s)
  {
    RunAppend(Initial, " ", s);
    assert Run(Initial, " ") == Initial by {
      assert " "[..0] == "";
    }
    if s != "" {
      assert (" " + s)[|" " + s| - 1] == s[|s| - 1];
      assert HasSuffix(" " + s, " ") <==> HasSuffix(s, " ");
    }
  }

  /** Outside a quote, a doubled space behaves like a single one. */
  lemma DoubledSpaceIgnored(a: string, b: string)
    requires !Run(Initial, a).inQuote
    ensures Tokenize(a + "  " + b) == Tokenize(a + " " + b)
  {
    var st := Run(Initial, a);
    var two, one := a + "  ", a + " ";
    assert Run(st, "  ") == Run(st, " ") by {
      assert "  "[..1] == " ";
      assert " "[..0] == "";
    }
    RunAppend(Initial, a, "  ");
    RunAppend(Initial, a, " ");
    assert Run(Initial, two) == Run(Initial, one);
    RunAppend(Initial, two, b);
    RunAppend(Initial, one, b);
    assert Run(Initial, two + b) == Run(Initial, one + b);
    SpaceSuffix(two + b);
    SpaceSuffix(one + b);
    if b != "" {
      assert (two + b)[|two + b| - 1] == b[|b| - 1];
      assert (one + b)[|one + b| - 1] == b[|b| - 1];
    } else {
      assert two + b == two && one + b == one;
    }
  }

  /**
   * An unterminated quote takes the rest of the line, spaces included, as the
   * final token (dropped only when empty), and then `wsAtEnd` is false.
   */
  lemma UnterminatedQuote(a: string, rest: string)
    requires !Run(Initial, a).inQuote
    requires '"' !in rest
    ensures Tokenize(a + "\"" + rest).tokens == Flush(Run(Initial, a)) + (if rest != "" then [rest] else [])
    ensures !Tokenize(a + "\"" + rest).wsAtEnd
  {
    var st := Run(Initial, a);
    RunAppend(Initial, a, "\"");
    RunAppend(Initial, a + "\"", rest);
    assert Run(st, "\"") == Scan(Flush(st), "", true) by {
      assert "\""[..0] == "";
    }
    assert forall i :: 0 <= i < |rest| ==> rest[i] != '"';
    var inQ := Scan(Flush(st), "", true);
    assert Run(inQ, rest) == Scan(Flush(st), rest, true) by {
      RunInQuote(inQ, rest);
      assert "" + rest == rest;
    }
  }

  /** Inside a quote, every character other than a quote is appended to the pending token. */
  lemma {:induction false} RunInQuote(st: Scan, w: string)
    requires st.inQuote && '"' !in w
    ensures Run(st, w) == Scan(st.tokens, st.token + w, true)
    decreases |w|
  {
    if |w| == 0 {
      assert st.token + w == st.token;
    } else {
      var p := w[..|w| - 1];
      assert '"' !in p by {
        assert forall i :: 0 <= i < |p| ==> p[i] == w[i];
      }
      RunInQuote(st, p);
      assert p + [w[|w| - 1]] == w;
      assert st.token + p + [w[|w| - 1]] == st.token + w;
    }
  }

  /** Outside a quote, a trailing space emits the pending token and sets `wsAtEnd`. */
  lemma TrailingSpace(s: string)
    requires !Run(Initial, s).inQuote
    ensures Tokenize(s + " ") == Tokens(Tokenize(s).tokens, true)
  {
    RunAppend(Initial, s, " ");
    assert Run(Run(Initial, s), " ") == Step(Run(Initial, s), ' ') by {
      assert " "[..0] == "";
    }
    SpaceSuffix(s + " ");
  }

  /**
   * A closed quote outside a quote emits the pending token, if any, and then
   * exactly the quoted text as one token, spaces included, even when empty.
   */
  lemma QuotedToken(a: string, w: string)
    requires !Run(Initial, a).inQuote
    requires '"' !in w
    ensures Tokenize(a + "\"" + w + "\"") == Tokens(Flush(Run(Initial, a)) + [w], false)
  {
    var st := Run(Initial, a);
    var open := Scan(Flush(st), "", true);
    RunAppend(Initial, a, "\"");
    assert Run(st, "\"") == open by {
      assert "\""[..0] == "";
    }
    RunAppend(Initial, a + "\"", w);
    RunInQuote(open, w);
    assert "" + w == w;
    RunAppend(Initial, a + "\"" + w, "\"");
    assert Run(Scan(Flush(st), w, true), "\"") == Scan(Flush(st) + [w], "", false) by {
      assert "\""[..0] == "";
    }
    SpaceSuffix(a + "\"" + w + "\"");
  }
}

=== FILE: wrappers.dfy ===
/** Option and Result types used for Go's nil pointers and (value, error) returns. */
module Wrappers {

  /** A value that may be absent (a Go pointer that may be nil). */
  datatype Option<+T> = None | Some(value: T)

  /** Either a successful value or an error (Go's `(T, error)` pair). */
  datatype Result<+T, +E> = Success(value: T) | Failure(error: E)
}
